=== FILE: README.md ===
# indy-read-replica core in Dafny

A model of the two pieces of logic at the heart of the Indy read replica.

- **The NYM/ATTRIB expansion step.** When the daemon builds the `expansion`
  form of a domain transaction, `transformNymAttrib` does the following to
  `txn.data`:
  - fills in a missing `dest` from `txn.metadata.from`;
  - derives `verkeyFull` from `verkey`;
  - derives `roleAction` from the role code;
  - extracts a service `endpoint` and a `lastUpdated` stamp from the `raw`
    ATTRIB payload.
- **The read API's replies and filter rules.** For each ledger read request
  (GET_TXN, GET_NYM, GET_ATTRIB, GET_SCHEMA, GET_CLAIM_DEF, GET_REVOC_REG_DEF,
  GET_REVOC_REG, GET_REVOC_REG_DELTA, GET_TRANSACTION_AUTHOR_AGREEMENT(_AML)
  and GET_AUTH_RULE), the API:
  - checks the query parameters (mutually exclusive filters; the all-or-none
    AUTH_RULE filter);
  - looks up the stored transactions;
  - rebuilds a ledger-shaped `REPLY` with the right type code.

  The revocation-registry delta (`getDelta`) computes which indices were
  issued or revoked between two registry entries.

JSON values are a `Json` datatype. Objects keep their members in insertion
order. Module `Js` models the JavaScript operations the source performs on
them:
- Reading a member of undefined or null throws a TypeError.
- Reading a member of a primitive or an array gives undefined.
- A write into a primitive is silently lost. The source files are sloppy-mode
  CommonJS.
- Truthiness follows JavaScript.

A handler's thrown exception is the `Err` of a `Result`. Library calls are
function-typed parameters:
- JSON.parse (its outcome, `None` when it throws);
- base64 decoding;
- the `indyscan-txtype` verification-key helpers;
- the storage lookups.

| module | file | models |
|---|---|---|
| `Wrappers` | wrappers.dfy | `Option` and `Result` |
| `Js` | js.dfy | JSON values; member read, write and delete; `a.b.c` read chains |
| `Roles` | roles.dfy | `ROLE_ACTIONS`, `String.prototype.trim`, `roleIdToRoleAction` |
| `RawData` | raw_data.dfy | `tryParseRawData` |
| `NymAttrib` | nym_attrib.dfy | `getFullVerkey`, `transformNymAttrib` |
| `RevocDelta` | revoc_delta.dfy | `getDelta`, on sequences and on parsed JSON |
| `QueryFilters` | filters.dfy | the parameter checks and their messages; the `raw` decoding |
| `Replies` | replies.dfy | type codes, `getSubledger`, `buildResponse`, `Object.keys(...)[0]`, one reply builder per request kind |
| `Routes` | routes.dfy | each read route: check, lookup, reply |

## Model

| member | source | states |
|---|---|---|
| Roles.RoleIdToRoleAction | daemon/src/transformers/expansion/domain/nym-attrib.js:14-19 | every action other than REMOVE_ROLE requires a role string; a null role always removes the role |
| Roles.RoleActionSpec | daemon/src/transformers/expansion/domain/nym-attrib.js:5-19 | REMOVE_ROLE exactly for a null or all-white-space role; a table code (once trimmed) gives its action; UNKNOWN_ROLE_ACTION exactly for a non-blank code outside the table |
| Roles.RoleActionsTable | daemon/src/transformers/expansion/domain/nym-attrib.js:5-10 | the table holds exactly the codes "0", "2", "101", "201"; `CodeOf` takes each entry back to its code; REMOVE_ROLE and UNKNOWN_ROLE_ACTION are not in it |
| Roles.RoleCodeRoundTrip | daemon/src/transformers/expansion/domain/nym-attrib.js:5-10 | every code of the table, with any white space around it, maps back to its action |
| Roles.TrimSpec | daemon/src/transformers/expansion/domain/nym-attrib.js:15 | `trim` removes exactly the leading and trailing white space and nothing inside |
| Roles.TrimEmptyIffBlank | daemon/src/transformers/expansion/domain/nym-attrib.js:15 | `id.trim() === ''` holds exactly for all-white-space strings |
| Roles.TrimPadded | daemon/src/transformers/expansion/domain/nym-attrib.js:18 | white space around a code does not change what it trims to |
| Roles.TrusteeExample | daemon/src/transformers/expansion/domain/nym-attrib.js:6 | "0" is SET_TRUSTEE |
| Roles.EmptyRoleExample | daemon/src/transformers/expansion/domain/nym-attrib.js:15-16 | "" is REMOVE_ROLE |
| Roles.PaddedEndorserExample | daemon/src/transformers/expansion/domain/nym-attrib.js:14-19 | " 101\n" is SET_ENDORSER |
| Roles.UnknownRoleExample | daemon/src/transformers/expansion/domain/nym-attrib.js:18 | "999" is UNKNOWN_ROLE_ACTION, not an error |
| RawData.TryParseRawData | daemon/src/transformers/expansion/domain/nym-attrib.js:21-56 | a result field can be defined only when the parsed value is an object |
| RawData.TryParseRawDataSpec | daemon/src/transformers/expansion/domain/nym-attrib.js:21-56 | text that is not JSON, or is `null`, yields nothing; the endpoint is defined exactly when the chosen candidate is a string; `lastUpdated` is defined exactly when `last_updated` is truthy |
| RawData.EndpointCandidate | daemon/src/transformers/expansion/domain/nym-attrib.js:27-47 | the candidate is truthy when defined; with a falsy `endpoint` it is the truthy `url` or nothing; with a truthy `endpoint` that is a string (such as `{"endpoint":"https://x"}`) it is nothing, since a string has none of the nested members |
| RawData.FirstTruthy | daemon/src/transformers/expansion/domain/nym-attrib.js:27-47 | the result is truthy, and defined exactly when some path of the list leads to a truthy value |
| RawData.EndpointIsFirstPreferred | daemon/src/transformers/expansion/domain/nym-attrib.js:27-47 | the if/else chain picks the first truthy value of `endpoint.endpoint.endpoint`, `endpoint.endpoint`, `endpoint.agent`, `endpoint.xdi`, `endpoint.processor_url`, `endpoint.controller_url`; `url` is the only path when `endpoint` is falsy |
| RawData.UrlIgnoredUnderEndpoint | daemon/src/transformers/expansion/domain/nym-attrib.js:45-47 | with a truthy `endpoint`, changing the top-level `url` changes nothing |
| RawData.NestedEndpointExample | daemon/src/transformers/expansion/domain/nym-attrib.js:29-30 | the triply nested form of a malformed transaction gives its inner URL |
| RawData.EndpointExample | daemon/src/transformers/expansion/domain/nym-attrib.js:28-34 | `{"endpoint":{"endpoint":url}}` gives the URL |
| RawData.NonStringEndpointExample | daemon/src/transformers/expansion/domain/nym-attrib.js:27-54 | a non-string preferred candidate is dropped, without falling through to `agent` |
| NymAttrib.GetFullVerkey | daemon/src/transformers/expansion/domain/nym-attrib.js:58-60 | a full key is returned unchanged; an abbreviated one is composed with the DID |
| NymAttrib.RoleActionOf | daemon/src/transformers/expansion/domain/nym-attrib.js:73-75 | through `roleIdToRoleAction`, the role action is computed exactly for a null or string role (any other value has no `trim` and throws a TypeError); null removes the role |
| NymAttrib.WithDest | daemon/src/transformers/expansion/domain/nym-attrib.js:64-69 | fails exactly when `dest` and `metadata.from` are both missing, with a TypeError when `metadata` itself is undefined or null and the explicit "Found no data.dest and no metadata.from." error otherwise; a present `dest` leaves the data untouched; a missing one becomes `metadata.from`; no other key changes |
| NymAttrib.WithVerkeyFull | daemon/src/transformers/expansion/domain/nym-attrib.js:58-72 | a present `verkey` gives `verkeyFull` = getFullVerkey(dest, verkey); without `verkey` nothing changes; only `verkeyFull` may change |
| NymAttrib.WithRoleAction | daemon/src/transformers/expansion/domain/nym-attrib.js:73-75 | fails, with a TypeError, exactly on a role that is neither null nor a string; a present role gives `roleAction`; only `roleAction` may change |
| NymAttrib.WithParsed | daemon/src/transformers/expansion/domain/nym-attrib.js:78-83 | `endpoint` and `lastUpdated` are written only when defined; nothing else changes |
| NymAttrib.TransformNymAttrib | daemon/src/transformers/expansion/domain/nym-attrib.js:62-87 | a null transaction throws; without a truthy `txn.data` the transaction is returned unchanged |
| NymAttrib.EnrichData | daemon/src/transformers/expansion/domain/nym-attrib.js:63-85 | a failure of the missing-`dest` check is the TypeError or the explicit error according to `metadata`; any other failure is the TypeError of the role mapping |
| NymAttrib.EnrichDataFails | daemon/src/transformers/expansion/domain/nym-attrib.js:64-75 | the enrichment fails exactly when `dest` and `metadata.from` are both missing or the role is neither null nor a string |
| NymAttrib.EnrichDataSpec | daemon/src/transformers/expansion/domain/nym-attrib.js:62-87 | on success every original field stays in place, only the five derived keys can change, and each is what its step promises |
| NymAttrib.ReplaceDataKeepsOutside | daemon/src/transformers/expansion/domain/nym-attrib.js:68-82 | writing into `txn.data` changes no member of `tx` or `txn` other than `data` |
| NymAttrib.TransformNonObjectData | daemon/src/transformers/expansion/domain/nym-attrib.js:63-72 | a truthy non-object `data` still needs `metadata.from` (a TypeError when `metadata` is undefined or null, the explicit error otherwise), and nothing visible changes |
| NymAttrib.TransformObjectData | daemon/src/transformers/expansion/domain/nym-attrib.js:63-85 | for object `data` the transform is the enrichment, written back in place |
| NymAttrib.TransformSpec | daemon/src/transformers/expansion/domain/nym-attrib.js:62-87 | the transform fails exactly on missing `dest` and `metadata.from` (TypeError or the explicit error, according to `metadata`) or a bad role (TypeError); otherwise only `txn.data` changes, and there only the derived keys |
| NymAttrib.FullVerkeyCopied | daemon/src/transformers/expansion/domain/nym-attrib.js:58-72 | a non-abbreviated `verkey` is copied unchanged into `verkeyFull` |
| NymAttrib.AbbreviatedVerkeyExpanded | daemon/src/transformers/expansion/domain/nym-attrib.js:58-72 | an abbreviated `verkey` is composed with the `dest` the result carries, including a substituted one |
| NymAttrib.DestFilledFromMetadata | daemon/src/transformers/expansion/domain/nym-attrib.js:64-69 | a present `dest` never changes; a missing one becomes the defined `metadata.from` |
| NymAttrib.RawFieldsOnlyFromTruthyRaw | daemon/src/transformers/expansion/domain/nym-attrib.js:76-84 | `endpoint` or `lastUpdated` changes only when `raw` is truthy and the extraction defined that field |
| NymAttrib.AttribScenario | daemon/src/transformers/expansion/domain/nym-attrib.js:62-87 | an ATTRIB with only `raw` and a sender gets `dest` = sender and the extracted endpoint |
| RevocDelta.Without | api/src/api/txs.js:382-383 | `xs.filter(x => !ys.includes(x))` keeps exactly the members of `xs` that are not in `ys` |
| RevocDelta.WithoutIsSubsequence | api/src/api/txs.js:382-383 | the filter preserves order: its result is a subsequence of `xs` |
| RevocDelta.WithoutCounts | api/src/api/txs.js:382-383 | duplicates are kept: each surviving value occurs as often as in `xs` |
| RevocDelta.GetDelta | api/src/api/txs.js:377-386 | with `from`, `issued` is a subsequence of `to.issued` and `revoked` of `from.issued` |
| RevocDelta.DeltaWithoutFrom | api/src/api/txs.js:378-380 | without `from` the delta is `to` itself |
| RevocDelta.DeltaMembers | api/src/api/txs.js:382-383 | `issued` holds exactly the values issued at `to` and not at `from`; `revoked` exactly those issued at `from` and not at `to` |
| RevocDelta.DeltaDisjoint | api/src/api/txs.js:382-383 | `issued` and `revoked` are disjoint; `issued` avoids `from.issued`; `revoked` avoids `to.issued` |
| RevocDelta.DeltaCounts | api/src/api/txs.js:382-383 | the multiplicity of every value in the delta lists |
| RevocDelta.ApplyDelta | api/src/api/txs.js:382-383 | `from.issued` minus `revoked` plus `issued` is `to.issued`, as sets |
| RevocDelta.IdenticalSnapshots | api/src/api/txs.js:382-383 | identical snapshots give an empty delta |
| RevocDelta.MonotoneNothingRevoked | api/src/api/txs.js:383 | when `to.issued` contains everything of `from.issued`, nothing is revoked |
| RevocDelta.DeltaExample | api/src/api/txs.js:382-385 | from [1,2] to [1,3]: issued [3], revoked [2] |
| RevocDelta.ListOr | api/src/api/txs.js:409-413 | `v \|\| []`: a truthy value is kept, a falsy one becomes an empty list |
| RevocDelta.WithoutJson | api/src/api/txs.js:382-383 | the filter on parsed JSON keeps the members of `xs` that `ys.includes` does not match |
| RevocDelta.WithoutJsonOnPrimitives | api/src/api/txs.js:382-383 | on lists of primitive values the JSON filter is the value filter |
| RevocDelta.SnapshotOf | api/src/api/txs.js:408-414 | reading an entry's `value` throws exactly when it is undefined or null; missing lists default to [] |
| RevocDelta.GetDeltaJson | api/src/api/txs.js:377-386 | without `from` the lists pass through; with `from` it succeeds exactly when both `issued` values are arrays, and then filters as `getDelta` |
| RevocDelta.GetDeltaJsonOnIndices | api/src/api/txs.js:377-386 | for lists of indices the JSON-level delta equals the sequence delta |
| RevocDelta.MissingFromIssuedIsEmpty | api/src/api/txs.js:412-413 | a missing `issued` at `from` counts as empty: everything issued at `to` is new and nothing is revoked |
| QueryFilters.CountTruthy | api/src/api/txs.js:137-139 | the count is zero exactly when no value is truthy |
| QueryFilters.TimestampSeqNoCheck | api/src/api/txs.js:137-139 | for GET_NYM and GET_ATTRIB alike, passes exactly when at most one of `timestamp` and `seqNo` is truthy; otherwise a ValidationError with the source's message |
| QueryFilters.TaaCheck | api/src/api/txs.js:526-528 | passes exactly when at most one of `version`, `timestamp` and `digest` is truthy; otherwise a ValidationError with the source's message |
| QueryFilters.TaaAmlCheck | api/src/api/txs.js:482-484 | passes exactly when at most one of `timestamp` and `version` is truthy; otherwise a ValidationError with the source's message |
| QueryFilters.Defined | api/src/api/txs.js:580-585 | the filtered list holds exactly the defined parameters |
| QueryFilters.DefinedCount | api/src/api/txs.js:580-589 | the filtered list's length is the number of defined parameters |
| QueryFilters.AuthRuleCheck | api/src/api/txs.js:580-594 | passes exactly when `auth_action`, `auth_type`, `field` and `new_value` are all undefined or all defined; otherwise a plain error with the source's message |
| QueryFilters.OldValueUnconstrained | api/src/api/txs.js:580-589 | `old_value` never changes the verdict |
| QueryFilters.DecodeRaw | api/src/api/txs.js:188 | a missing `raw` stays missing; an empty one stays empty |
| QueryFilters.DecodeOnlyNonEmpty | api/src/api/txs.js:188 | the decoder is consulted only on a non-empty `raw` |
| Js.ReadPath | api/src/api/txs.js:238 | a successful member chain yields the value at the end of the path |
| Js.ReadPathFails | api/src/api/txs.js:238 | a member chain throws exactly when some proper prefix of it is undefined or null |
| Js.Assign | api/src/api/txs.js:358 | a member write throws exactly on undefined or null; on an object it sets that member and keeps the others; on a primitive it is lost |
| Replies.TypeCode | api/src/api/txs.js:108-619 | the code written into each reply decodes back to its request kind |
| Replies.TypeCodeRoundTrip | api/src/api/txs.js:108-619 | the request type codes and their inverse agree in both directions |
| Replies.TypeCodesDistinct | api/src/api/txs.js:108-619 | no two request kinds share a type code |
| Replies.GetSubledger | api/src/api/txs.js:21-23 | a subledger is named exactly for ledger ids 0 to 2 |
| Replies.SubledgerRoundTrip | api/src/api/txs.js:21-23 | 0, 1, 2 name `pool`, `domain`, `config`, and names map back to their ids |
| Replies.BuildResponse | api/src/api/txs.js:25-44 | throws (TypeError) exactly when `txn`, `txn.metadata`, `txnMetadata` or `txn.data` is undefined or null; otherwise a REPLY of the given type echoing `identifier` and `reqId` |
| Replies.BuildResponseSpec | api/src/api/txs.js:25-44 | `seqNo` comes from `txnMetadata`; `ver` is `txn.data.ver` when truthy, else 1; `reqId` is recorded into an object-valued `txn.metadata` and nothing else in `txn` changes; the proofs pass through |
| Replies.MinIndexKey | api/src/api/txs.js:205 | picks the smallest array-index key when there is one, and none otherwise |
| Replies.FirstKey | api/src/api/txs.js:205 | `Object.keys(v)[0]` throws exactly on undefined and null |
| Replies.FirstKeyOfObject | api/src/api/txs.js:205 | the key taken is one of the object's keys (defined exactly when it has one): the smallest array index if any, else the first key inserted |
| Replies.FirstKeyExamples | api/src/api/txs.js:205 | `{"endpoint":...}` gives "endpoint"; an integer-like key precedes earlier string keys |
| Replies.OriginalOf | api/src/api/txs.js:143 | parsing the stored text fails exactly when it is not JSON |
| Replies.JsonParse | api/src/api/txs.js:205 | JSON.parse only ever throws a SyntaxError |
| Replies.StampNymData | api/src/api/txs.js:144-146 | an object `data` gets `identifier`, `txnTime` and `seqNo` and keeps every other member; a primitive is unchanged |
| Replies.NymReplyOf | api/src/api/txs.js:142-161 | a GET_NYM reply element is a NYM REPLY with a defined `data` |
| Replies.NymReplySpec | api/src/api/txs.js:142-161 | fails exactly when the stored text is not JSON, `txn.data` is undefined or null, or `txnMetadata.txnTime` cannot be read; `seqNo`, `txnTime`, `dest` and the stamped `data` are the stored ones |
| Replies.AttribReplyOf | api/src/api/txs.js:190-207 | a GET_ATTRIB reply element is an ATTRIB REPLY echoing the caller |
| Replies.AttribReplySpec | api/src/api/txs.js:193-206 | a missing or non-JSON `raw` throws a SyntaxError; `raw` parsing to null throws a TypeError; otherwise `data` is the stored `raw` text, `dest` the stored one, and `raw` the first key of the parsed payload |
| Replies.SchemaReplyOf | api/src/api/txs.js:231-247 | nothing stored throws; the reply carries the expanded schema `data`, the stored `seqNo` and `dest` = `from` |
| Replies.ClaimDefReplyOf | api/src/api/txs.js:277-296 | every non-empty reply is a CLAIM_DEF REPLY echoing the caller |
| Replies.ClaimDefGate | api/src/api/txs.js:281-296 | a stored tag other than the requested one gives `{}`; the same tag gives a REPLY (unless `txnMetadata` is unreadable) that echoes `tag`, `ref`, `signature_type` and `origin` and carries the stored `data` |
| Replies.RevocRegDefReplyOf | api/src/api/txs.js:318-333 | the reply carries the stored `txn.data` |
| Replies.RevocRegEntryReplyOf | api/src/api/txs.js:355-371 | the reply echoes `revocRegDefId` and carries a defined `data` |
| Replies.RevocRegEntrySetsId | api/src/api/txs.js:358 | an object `data` gets `id` = the requested registry and keeps every other member |
| Replies.AgreementReplyOf | api/src/api/txs.js:486-502 | for TAA-AML and TAA alike, no stored agreement throws; the reply carries the first stored transaction's `data`, `version` and `seqNo` under the TAA or TAA-AML code |
| Replies.RuleData | api/src/api/txs.js:614-618 | one rule per stored transaction, in order; an undefined `txn.data` becomes null; fails exactly when some chain cannot be read |
| Replies.AuthRuleReplyOf | api/src/api/txs.js:611-629 | the reply echoes the five query parameters and has no `seqNo` or `txnTime` |
| Replies.SnapshotsDelta | api/src/api/txs.js:408-414 | without a `from` entry the `to` lists (defaulted); with one, both `issued` values are arrays and the lists are the two set differences |
| Replies.AccumOfEntry | api/src/api/txs.js:421-429 | succeeds exactly when `txnMetadata.txnTime` of the parsed text can be read; the block holds the entry's `revocDefType` and `revocRegDefId`, that `txnTime`, the entry's `seqNo` and the `accum` of the given `value`, unmodified |
| Replies.AccumFromOf | api/src/api/txs.js:432-440 | `entry_from_originalTx && {...}`: no `from` entry gives the falsy `from` value; a falsy parsed text gives that text; a truthy one gives the `from` entry's block, failing exactly when its `txnTime` cannot be read |
| Replies.AccumsOf | api/src/api/txs.js:420-441 | `accum_to` carries the `to` entry's `revocDefType`, registry id, `seqNo`, the `txnTime` of its stored text and the `accum` of its `value`, unmodified; without a `from` entry `accum_from` is the falsy value itself; with one, `accum_from` is the same block built from the `from` entry when its parsed text is truthy, and that falsy text otherwise |
| Replies.RevocRegDeltaReplyOf | api/src/api/txs.js:443-460 | the delta reply echoes `revocRegDefId` and the caller |
| Replies.DeltaDataOf | api/src/api/txs.js:405-460 | an undefined or null `value` at the `to` entry throws; `accum_to` is the `to` entry's block (type, registry id, `txnTime`, `seqNo`, `accum` passed through); with a `from` entry `accum_from` is its block when its parsed text is truthy, else that falsy text, and `stateProofFrom` is `{}`; without one the falsy value fills `accum_from` and `stateProofFrom` |
| Replies.DeltaDataWithoutFrom | api/src/api/txs.js:406-456 | without a `from` entry the lists are the full `to` state, `accum_to` is the `to` entry's block, and the falsy `from` stands in for `accum_from` and `stateProofFrom` |
| Replies.DeltaDataWithFrom | api/src/api/txs.js:406-456 | with a `from` entry `stateProofFrom` is `{}`, `issued` holds exactly what the `to` entry issued and the `from` entry had not, `revoked` exactly what the `from` entry issued and the `to` entry no longer has; `accum_to` is the `to` entry's block, and `accum_from` the `from` entry's block when its parsed text is truthy, else that falsy text |
| Routes.MapReplies | api/src/api/txs.js:142-161 | `txs.map`: succeeds exactly when every element's reply does, one reply per element in order; a failure is the first failing element's error |
| Routes.GetTxnRoute | api/src/api/txs.js:96-117 | a successful GET_TXN sends one transaction reply |
| Routes.GetTxnSpec | api/src/api/txs.js:96-117 | only the ledger `getSubledger` names is consulted; nothing stored throws a TypeError, unparsable text a SyntaxError; the reply is type "3" with the stored metadata and proofs |
| Routes.GetNymRoute | api/src/api/txs.js:133-164 | a request that is not rejected sends a list |
| Routes.GetNymSpec | api/src/api/txs.js:137-161 | truthy `timestamp` and `seqNo` together are rejected whatever storage holds; otherwise one NYM reply per stored transaction, in order, each with that transaction's `seqNo` |
| Routes.GetAttribRoute | api/src/api/txs.js:179-211 | a request that is not rejected sends a list |
| Routes.GetAttribSpec | api/src/api/txs.js:184-207 | the same rejection, before decoding or lookup; otherwise storage is asked for the decoded `raw` and each stored ATTRIB gets a reply |
| Routes.GetSchemaRoute | api/src/api/txs.js:225-251 | sends one SCHEMA reply; nothing stored throws |
| Routes.GetClaimDefRoute | api/src/api/txs.js:266-301 | sends one reply, a CLAIM_DEF REPLY unless empty |
| Routes.ClaimDefTagNotQueried | api/src/api/txs.js:277-281 | the tag is not part of the lookup, so of two different tags at most one gets a non-empty reply |
| Routes.GetRevocRegDefRoute | api/src/api/txs.js:313-337 | sends one REVOC_REG_DEF reply; nothing stored throws |
| Routes.GetRevocRegRoute | api/src/api/txs.js:350-375 | sends one entry reply for the requested registry |
| Routes.EntryFromOf | api/src/api/txs.js:406 | a falsy `from` is kept without a lookup; a truthy one gives an entry exactly when storage has one |
| Routes.GetRevocRegDeltaRoute | api/src/api/txs.js:400-464 | sends one delta reply; no `to` entry throws |
| Routes.DeltaFalsyFromLooksUpOnlyTo | api/src/api/txs.js:405-456 | with a falsy `from` only the `to` entry matters, and the falsy value fills `accum_from` and `stateProofFrom` |
| Routes.GetTaaAmlRoute | api/src/api/txs.js:478-507 | a request that is not rejected sends one TAA-AML reply |
| Routes.GetTaaAmlRejects | api/src/api/txs.js:482-484 | rejected exactly when `timestamp` and `version` are both truthy, whatever storage holds |
| Routes.TaaAmlStringZeroRejected | api/src/api/txs.js:471-484 | `version=v1` with `timestamp=0`, which the schema delivers as the string "0", is rejected |
| Routes.GetTaaRoute | api/src/api/txs.js:522-551 | a request that is not rejected sends one TAA reply |
| Routes.GetTaaRejects | api/src/api/txs.js:526-528 | rejected exactly when two of `version`, `timestamp`, `digest` are truthy, whatever storage holds |
| Routes.GetAuthRuleRoute | api/src/api/txs.js:568-634 | a request that is not rejected sends one AUTH_RULE reply |
| Routes.GetAuthRuleSpec | api/src/api/txs.js:580-618 | rejected exactly when some but not all of the four inclusive parameters are defined; otherwise one rule per stored transaction |

## Where the code and its description differ

The model follows the code in each case.

- A role that is neither null nor a string (a number, say) has no `trim`.
  `roleIdToRoleAction` throws, and so does the whole transform. The mapping
  never fails only for string and null roles.
- The top-level `url` of an ATTRIB payload is consulted only when `endpoint` is
  falsy. It is not a last fallback after the nested candidates.
- A plain string `endpoint` (`{"endpoint":"https://x"}`) yields no endpoint.
  The chain reads only the nested members, and a string has none.
- `raw` must be truthy to be parsed.
- `last_updated` must be truthy to be kept.
- The revocation delta filters sequences. It keeps order and duplicates; it is
  not a set difference. Arrays or objects inside the lists never match each
  other (`includes` compares references).
- Rejections are not all alike:
  - NYM, ATTRIB, TAA and TAA-AML hand a `ValidationError` to the error handler.
  - AUTH_RULE hands a plain `{message}` object.
- The exclusivity checks test truthiness. The AUTH_RULE check tests
  definedness only.
  - NYM and ATTRIB declare `timestamp` a number, so `timestamp=0` counts as not
    given there.
  - TAA and TAA-AML declare `timestamp` and `version` strings. There
    `timestamp=0` arrives as the truthy string "0" and still conflicts with a
    `version`. An empty `version` never reaches the check, because the schema
    refuses an empty string.
- A GET_REVOC_REG_DELTA with `from` = 0 is treated as having no `from`.

## Left out

- HTTP routing and responses are not modelled: Express, `asyncHandler`, status
  codes, and `getNetworkId`, which answers 404 and then carries on. A handler's
  outcome is a `Response` or the thrown error.
- Joi validation of the query and path parameters is not modelled; parameters
  arrive already converted. `parseInt(seqNo)` of GET_TXN is taken as already
  applied.
- The storage service (`serviceTxs.getTx`/`getTxByType`/`getTxs`/`getTxsCount`)
  is a function parameter; its implementation is not part of this model. A
  single-entry lookup that finds nothing is taken to answer undefined (`None`).
  If storage answered `null` instead, GET_REVOC_REG_DELTA would send `null` for
  `accum_from` and `stateProofFrom` rather than leaving them out.
- The transaction-list and count routes (`/ledgers/:ledger/txs` and
  `/txs/stats/count`) only forward to storage. They are not modelled.
- JSON.parse, JSON.stringify and base64 decoding are library calls:
  - JSON.parse is a parameter giving its outcome.
  - Objects coming out of it are assumed to have distinct keys.
  - JSON.stringify's omission of undefined members is how an `Option` member
    reads.
- `composeFullVerkey` and `isAbbreviatedVerkey` come from an external package
  (base58). They are an uninterpreted function and predicate, and therefore
  total.
- NymAttrib.TransformSpec: the "fails exactly when" of this lemma (and of
  `EnrichDataSpec`, `EnrichDataFails` and `EnrichData`) assumes the verkey
  helpers never throw. A base58 decoding error inside them is not modelled.
- NymAttrib.TransformNymAttrib: the source writes into its argument as it
  goes. When `roleIdToRoleAction` throws (nym-attrib.js line 74) after the
  writes of `dest` and `verkeyFull` (lines 68 and 71), the caller's object is
  left partly enriched. The model returns a fresh value on success and only
  the error on failure, so that partial state is not represented.
- Replies.OriginalOf: the stored record is assumed to have the shape the
  routes read: `idata.json` (GET_TXN), `idata.serialized.idata.json`,
  `idata.expansion.idata` and `imeta.seqNo`. When a level of that path is missing, the source throws a
  TypeError. The model has no such case; it can only fail to parse the text
  (a SyntaxError).
- Lookups in `ROLE_ACTIONS` of inherited property names such as "toString" are
  not modelled. The table is a finite map.
- Numbers are mathematical reals. This is an assumption on the `parse`
  parameter: parsed numbers are taken as exact. JSON.parse itself rounds
  numerals beyond 2^53 and turns `1e400` into Infinity; revocation indices are
  assumed to be small integers, where the two agree.
- The constant `state_proof: {}` member of the lookup replies is not
  represented.
- Console logging is not modelled.
- The non-mutating expansion wrapper (including the `txnTime` normalisation),
  the serialize/deserialize transformers and the memory target are not part of
  this model.
- The daemon's start-up (`daemon/src/index.js`) and the server middleware are
  not modelled: configuration, templating, workers, response interception and
  error ids.

=== FILE: filters.dfy ===
/** The filter checks the query routes run before any storage lookup.

    Query parameters arrive already converted by the route's schema; a
    parameter that was not given is `None`. The exclusivity checks test
    JavaScript truthiness. NYM and ATTRIB take `timestamp` and `seqNo` as
    numbers, so a `timestamp` of 0 counts as not given there; TAA and TAA-AML
    take `timestamp` as a string, so "0" is truthy and still conflicts. The
    AUTH_RULE check tests only whether a parameter is defined. */
module QueryFilters {
  import opened Wrappers
  import opened Js

  const TimestampSeqNoMessage := "'timestamp' is mutually exclusive with 'seqNo'"
  /** The message as the ledger sends it, spelling included */
  const TaaMessage := "query paramters 'timestamp', 'version' and 'digest' are mutually exclusive"
  const TaaAmlMessage := "'timestamp' is mutually exclusive with 'version'"
  const AuthRuleMessage :=
    "`auth_action`, `auth_type`, `field`,`new_value` query params must be defined if any one of them is defined."

  /** What the route hands to `next`: a `ValidationError`, or (AUTH_RULE) a plain object with a message */
  datatype Rejection = ValidationError(message: string) | PlainError(message: string)

  datatype Verdict = Pass | Conflict(rejection: Rejection)

  /** How many of the values are truthy */
  function CountTruthy(vs: seq<Option<Json>>): (n: nat)
    ensures n <= |vs|
    ensures n == 0 <==> forall i :: 0 <= i < |vs| ==> !Truthy(vs[i])
  {
    if vs == [] then 0
    else
      var rest := CountTruthy(vs[1..]);
      assert forall i :: 1 <= i < |vs| ==> vs[i] == vs[1..][i - 1];
      (if Truthy(vs[0]) then 1 else 0) + rest
  }

  function Bit(b: bool): nat {
    if b then 1 else 0
  }

  lemma CountTruthyOfTwo(a: Option<Json>, b: Option<Json>)
    ensures CountTruthy([a, b]) == Bit(Truthy(a)) + Bit(Truthy(b))
  {
    assert [a, b][1..] == [b];
  }

  lemma CountTruthyOfThree(a: Option<Json>, b: Option<Json>, c: Option<Json>)
    ensures CountTruthy([a, b, c]) == Bit(Truthy(a)) + Bit(Truthy(b)) + Bit(Truthy(c))
  {
    assert [a, b, c][1..] == [b, c];
    CountTruthyOfTwo(b, c);
  }

  /** `params.filter(param => typeof param !== 'undefined')` */
  function Defined(vs: seq<Option<Json>>): (r: seq<Option<Json>>)
    ensures |r| <= |vs|
    ensures forall v {:trigger v in r} :: v in r <==> v in vs && v.Some?
  {
    if vs == [] then []
    else
      var rest := Defined(vs[1..]);
      assert forall v :: v in vs <==> v == vs[0] || v in vs[1..];
      if vs[0].Some? then [vs[0]] + rest else rest
  }

  /** GET_NYM and GET_ATTRIB: `timestamp && seqNo` is rejected */
  function TimestampSeqNoCheck(timestamp: Option<Json>, seqNo: Option<Json>): (v: Verdict)
    ensures v.Pass? <==> CountTruthy([timestamp, seqNo]) <= 1
    ensures v.Conflict? ==> v.rejection == ValidationError(TimestampSeqNoMessage)
  {
    CountTruthyOfTwo(timestamp, seqNo);
    if Truthy(timestamp) && Truthy(seqNo) then Conflict(ValidationError(TimestampSeqNoMessage)) else Pass
  }

  /** GET_TRANSACTION_AUTHOR_AGREEMENT: any two of `version`, `timestamp` and `digest` are rejected */
  function TaaCheck(version: Option<Json>, timestamp: Option<Json>, digest: Option<Json>): (v: Verdict)
    ensures v.Pass? <==> CountTruthy([version, timestamp, digest]) <= 1
    ensures v.Conflict? ==> v.rejection == ValidationError(TaaMessage)
  {
    CountTruthyOfThree(version, timestamp, digest);
    if (Truthy(version) && Truthy(timestamp)) || (Truthy(version) && Truthy(digest)) || (Truthy(timestamp) && Truthy(digest))
    then Conflict(ValidationError(TaaMessage))
    else Pass
  }

  /** GET_TRANSACTION_AUTHOR_AGREEMENT_AML: `timestamp && version` is rejected */
  function TaaAmlCheck(version: Option<Json>, timestamp: Option<Json>): (v: Verdict)
    ensures v.Pass? <==> CountTruthy([timestamp, version]) <= 1
    ensures v.Conflict? ==> v.rejection == ValidationError(TaaAmlMessage)
  {
    CountTruthyOfTwo(timestamp, version);
    if Truthy(timestamp) && Truthy(version) then Conflict(ValidationError(TaaAmlMessage)) else Pass
  }

  /** The query of GET_AUTH_RULE */
  datatype AuthRuleQuery = AuthRuleQuery(
    authAction: Option<Json>, authType: Option<Json>, field: Option<Json>,
    oldValue: Option<Json>, newValue: Option<Json>)

  /** The parameters that must come together; `old_value` is not one of them */
  function InclusiveParams(q: AuthRuleQuery): seq<Option<Json>> {
    [q.authAction, q.authType, q.field, q.newValue]
  }

  /** GET_AUTH_RULE: the four inclusive parameters are all defined or all undefined */
  function AuthRuleCheck(q: AuthRuleQuery): (v: Verdict)
    ensures v.Pass? <==>
              (q.authAction.None? && q.authType.None? && q.field.None? && q.newValue.None?)
              || (q.authAction.Some? && q.authType.Some? && q.field.Some? && q.newValue.Some?)
    ensures v.Conflict? ==> v.rejection == PlainError(AuthRuleMessage)
  {
    var defined := Defined(InclusiveParams(q));
    DefinedCount(InclusiveParams(q));
    CountDefinedOfFour(q.authAction, q.authType, q.field, q.newValue);
    if |defined| > 0 && |defined| != 4 then Conflict(PlainError(AuthRuleMessage)) else Pass
  }

  /** The number of defined values, by position */
  function CountDefined(vs: seq<Option<Json>>): nat {
    if vs == [] then 0 else (if vs[0].Some? then 1 else 0) + CountDefined(vs[1..])
  }

  lemma CountDefinedOfFour(a: Option<Json>, b: Option<Json>, c: Option<Json>, d: Option<Json>)
    ensures CountDefined([a, b, c, d]) == Bit(a.Some?) + Bit(b.Some?) + Bit(c.Some?) + Bit(d.Some?)
  {
    assert [a, b, c, d][1..] == [b, c, d];
    assert [b, c, d][1..] == [c, d];
    assert [c, d][1..] == [d];
    assert CountDefined([d]) == Bit(d.Some?) by {
      assert [d][1..] == [];
    }
    assert CountDefined([c, d]) == Bit(c.Some?) + CountDefined([d]);
    assert CountDefined([b, c, d]) == Bit(b.Some?) + CountDefined([c, d]);
  }

  /** The filtered list is as long as the number of defined values */
  lemma {:induction false} DefinedCount(vs: seq<Option<Json>>)
    ensures |Defined(vs)| == CountDefined(vs)
  {
    if vs != [] {
      DefinedCount(vs[1..]);
    }
  }

  /** `old_value` never decides the verdict */
  lemma OldValueUnconstrained(q: AuthRuleQuery, oldValue: Option<Json>)
    ensures AuthRuleCheck(q.(oldValue := oldValue)) == AuthRuleCheck(q)
  {
    assert InclusiveParams(q.(oldValue := oldValue)) == InclusiveParams(q);
  }

  /** GET_ATTRIB's `raw`: `rawBase64 && decode(rawBase64)`; an absent or empty
      parameter is passed on as it is, without decoding */
  function DecodeRaw(rawBase64: Option<string>, decode: string -> string): (r: Option<string>)
    ensures rawBase64.None? <==> r.None?
    ensures rawBase64 == Some("") ==> r == Some("")
  {
    if rawBase64.None? || rawBase64.value == "" then rawBase64 else Some(decode(rawBase64.value))
  }

  /** The decoder is consulted only on a non-empty parameter */
  lemma DecodeOnlyNonEmpty(rawBase64: Option<string>, d1: string -> string, d2: string -> string)
    requires rawBase64.Some? && rawBase64.value != "" ==> d1(rawBase64.value) == d2(rawBase64.value)
    ensures DecodeRaw(rawBase64, d1) == DecodeRaw(rawBase64, d2)
  {
  }
}

=== FILE: js.dfy ===
/** JSON values and the slice of JavaScript semantics the modelled code relies on:
    truthiness, property reads that throw on `undefined`/`null`, and property
    writes that append a new key or overwrite an existing one in place.

    A JavaScript object parsed from JSON is an ordered list of fields; a key
    that is absent reads as `undefined`, modelled as `None`. Prototype
    properties (`toString`, `length`, ...) are not modelled: none of the keys
    the source reads is one of them. */
module Js {
  import opened Wrappers

  datatype Json =
    | JNull
    | JBool(b: bool)
    | JNum(n: real)
    | JStr(s: string)
    | JArr(items: seq<Json>)
    | JObj(fields: seq<Field>)

  datatype Field = Field(key: string, value: Json)

  /** The exceptions the modelled code can raise. */
  datatype Error =
    | TypeError                // a property of undefined/null read or written, a non-function called
    | SyntaxError              // JSON.parse of text that is not JSON
    | Thrown(message: string)  // an explicit `throw Error(message)`

  /** The keys of an object, in insertion order */
  function Keys(fs: seq<Field>): (ks: seq<string>)
    ensures |ks| == |fs|
  {
    if fs == [] then [] else [fs[0].key] + Keys(fs[1..])
  }

  /** `o[k]` on an object: the value of the first field named k */
  function Lookup(fs: seq<Field>, k: string): (r: Option<Json>)
    ensures r.None? <==> k !in Keys(fs)
  {
    if fs == [] then None
    else if fs[0].key == k then Some(fs[0].value)
    else Lookup(fs[1..], k)
  }

  /** A value read from an object is the value of one of its fields */
  lemma {:induction false} LookupFound(fs: seq<Field>, k: string)
    requires Lookup(fs, k).Some?
    ensures exists i :: 0 <= i < |fs| && fs[i] == Field(k, Lookup(fs, k).value)
  {
    if fs[0].key != k {
      LookupFound(fs[1..], k);
      var i :| 0 <= i < |fs[1..]| && fs[1..][i] == Field(k, Lookup(fs, k).value);
      assert fs[i + 1] == Field(k, Lookup(fs, k).value);
    }
  }

  /** `o[k] = v` on an object: an existing field keeps its place, a new one is appended */
  function Update(fs: seq<Field>, k: string, v: Json): (r: seq<Field>)
    ensures Lookup(r, k) == Some(v)
    ensures forall k' {:trigger Lookup(r, k')} :: k' != k ==> Lookup(r, k') == Lookup(fs, k')
    ensures k in Keys(fs) ==> Keys(r) == Keys(fs)
    ensures k !in Keys(fs) ==> Keys(r) == Keys(fs) + [k]
  {
    if fs == [] then [Field(k, v)]
    else if fs[0].key == k then [Field(k, v)] + fs[1..]
    else
      var rest := Update(fs[1..], k, v);
      assert ([fs[0]] + rest)[1..] == rest;
      [fs[0]] + rest
  }

  /** The object as JSON.stringify shows it after `o[k] = undefined`: the key is gone */
  function Remove(fs: seq<Field>, k: string): (r: seq<Field>)
    ensures Lookup(r, k) == None
    ensures forall k' {:trigger Lookup(r, k')} :: k' != k ==> Lookup(r, k') == Lookup(fs, k')
  {
    if fs == [] then []
    else if fs[0].key == k then Remove(fs[1..], k)
    else
      var rest := Remove(fs[1..], k);
      assert ([fs[0]] + rest)[1..] == rest;
      [fs[0]] + rest
  }

  /** JavaScript truthiness, with `None` for `undefined` */
  predicate Truthy(v: Option<Json>) {
    match v
    case None => false
    case Some(JNull) => false
    case Some(JBool(b)) => b
    case Some(JNum(n)) => n != 0.0
    case Some(JStr(s)) => s != ""
    case Some(_) => true  // arrays and objects, even empty ones
  }

  /** The member k of a value as the JSON view shows it: only objects have own keys */
  function Get(v: Json, k: string): Option<Json> {
    if v.JObj? then Lookup(v.fields, k) else None
  }

  /** The JavaScript expression `v.k`, which throws when v is undefined or null */
  function Read(v: Option<Json>, k: string): (r: Result<Option<Json>, Error>)
    ensures r.Err? <==> v.None? || v == Some(JNull)
    ensures r.Ok? ==> r.value == Get(v.value, k)
  {
    match v
    case None => Err(TypeError)
    case Some(JNull) => Err(TypeError)
    case Some(j) => Ok(Get(j, k))
  }

  /** The JavaScript statement `v.k = x` (the source is not in strict mode), seen
      through JSON: it throws on undefined/null, is invisible on primitives and
      arrays, and on an object sets the key, or drops it when x is undefined. */
  function Assign(v: Option<Json>, k: string, x: Option<Json>): (r: Result<Json, Error>)
    ensures r.Err? <==> v.None? || v == Some(JNull)
    ensures r.Ok? && v.value.JObj? ==> r.value.JObj? && Get(r.value, k) == x
    ensures r.Ok? && v.value.JObj? ==> forall k' {:trigger Get(r.value, k')} :: k' != k ==> Get(r.value, k') == Get(v.value, k')
    ensures r.Ok? && !v.value.JObj? ==> r.value == v.value
  {
    match v
    case None => Err(TypeError)
    case Some(JNull) => Err(TypeError)
    case Some(JObj(fs)) => Ok(JObj(if x.Some? then Update(fs, k, x.value) else Remove(fs, k)))
    case Some(j) => Ok(j)
  }

  /** The value at a member path in the JSON view; a missing member anywhere on the way gives `None` */
  function AtPath(v: Option<Json>, path: seq<string>): Option<Json>
    decreases |path|
  {
    if path == [] || v.None? then v else AtPath(Get(v.value, path[0]), path[1..])
  }

  /** The JavaScript expression `v.k1.k2...`: each step throws on undefined or null */
  function ReadPath(v: Option<Json>, path: seq<string>): (r: Result<Option<Json>, Error>)
    ensures r.Ok? ==> r.value == AtPath(v, path)
    decreases |path|
  {
    if path == [] then Ok(v)
    else
      var x :- Read(v, path[0]);
      ReadPath(x, path[1..])
  }

  /** A path read fails exactly when some value on the way, before the last member, is undefined or null */
  lemma {:induction false} ReadPathFails(v: Option<Json>, path: seq<string>)
    ensures ReadPath(v, path).Err? <==>
              exists i :: 0 <= i < |path| && (AtPath(v, path[..i]).None? || AtPath(v, path[..i]) == Some(JNull))
    decreases |path|
  {
    if path != [] {
      assert path[..0] == [];
      if v.Some? && v != Some(JNull) {
        var x := Get(v.value, path[0]);
        ReadPathFails(x, path[1..]);
        forall i | 0 <= i < |path[1..]| ensures AtPath(x, path[1..][..i]) == AtPath(v, path[..i + 1]) {
          assert path[..i + 1][1..] == path[1..][..i];
        }
        if ReadPath(v, path).Err? {
          var i :| 0 <= i < |path[1..]| && (AtPath(x, path[1..][..i]).None? || AtPath(x, path[1..][..i]) == Some(JNull));
          assert AtPath(v, path[..i + 1]) == AtPath(x, path[1..][..i]);
        } else {
          forall i | 0 <= i < |path| ensures !(AtPath(v, path[..i]).None? || AtPath(v, path[..i]) == Some(JNull)) {
            if i > 0 {
              assert AtPath(v, path[..i]) == AtPath(x, path[1..][..i - 1]);
            }
          }
        }
      }
    }
  }

  /** A JavaScript number holding an integer */
  function Num(n: int): Json {
    JNum(n as real)
  }
}

=== FILE: nym_attrib.dfy ===
/** The NYM/ATTRIB step of the `expansion` format: `transformNymAttrib`
    fills in a missing `dest` from `metadata.from` and derives `verkeyFull`,
    `roleAction`, `endpoint` and `lastUpdated` inside `txn.data`.

    The source writes into its argument; the model returns the written value.
    The verification-key helpers and JSON.parse are parameters. */
module NymAttrib {
  import opened Wrappers
  import opened Js
  import Roles
  import RawData

  /** `isAbbreviatedVerkey` and `composeFullVerkey` of the `indyscan-txtype` package */
  datatype VerkeyLib = VerkeyLib(isAbbreviated: Json -> bool, compose: (Json, Json) -> Json)

  const MissingDest := "Found no data.dest and no metadata.from."

  /** The keys the enrichment may add or overwrite */
  const EnrichedKeys: set<string> := {"dest", "verkeyFull", "roleAction", "endpoint", "lastUpdated"}

  /** `getFullVerkey`: an abbreviated key is expanded against the DID, a full one is kept */
  function GetFullVerkey(lib: VerkeyLib, did: Json, verkey: Json): (r: Json)
    ensures !lib.isAbbreviated(verkey) ==> r == verkey
    ensures lib.isAbbreviated(verkey) ==> r == lib.compose(did, verkey)
  {
    if lib.isAbbreviated(verkey) then lib.compose(did, verkey) else verkey
  }

  /** What the missing-`dest` branch throws: reading `from` of an undefined or
      null `metadata` is a TypeError; a defined `metadata` without `from`
      raises the explicit error */
  function MissingDestError(metadata: Option<Json>): Error {
    if metadata.None? || metadata.value.JNull? then TypeError else Thrown(MissingDest)
  }

  /** `roleIdToRoleAction(role)` on whatever the role field holds: null is a
      removal, a string goes through the table, anything else has no `trim`
      method and the call throws */
  function RoleActionOf(role: Json): (r: Result<Roles.RoleAction, Error>)
    ensures r.Ok? <==> role.JNull? || role.JStr?
    ensures role.JNull? ==> r == Ok(Roles.RemoveRole)
    ensures r.Err? ==> r.error == TypeError
  {
    match role
    case JNull => Ok(Roles.RoleIdToRoleAction(None))
    case JStr(s) => Ok(Roles.RoleIdToRoleAction(Some(s)))
    case _ => Err(TypeError)
  }

  /** The best-effort parse of `data.raw`, when the raw field is truthy */
  function ParsedRawOf(parse: Json -> Option<Json>, raw: Option<Json>): RawData.ParsedRaw {
    if Truthy(raw) then RawData.TryParseRawData(parse(raw.value)) else RawData.ParsedRaw(None, None)
  }

  /** fs' keeps every field of fs in place and agrees with fs outside `except` */
  ghost predicate KeepsOutside(fs: seq<Field>, fs': seq<Field>, except: set<string>) {
    && Keys(fs) <= Keys(fs')
    && forall k {:trigger Lookup(fs', k)} :: k !in except ==> Lookup(fs', k) == Lookup(fs, k)
  }

  /** Step 1: a missing `dest` is taken from `metadata.from`; both missing is an error */
  function WithDest(fs: seq<Field>, metadata: Option<Json>): (r: Result<seq<Field>, Error>)
    ensures var from := if metadata.Some? then Get(metadata.value, "from") else None;
            r.Ok? <==> Lookup(fs, "dest").Some? || from.Some?
    ensures r.Err? ==> r.error == MissingDestError(metadata)
    ensures r.Ok? ==> KeepsOutside(fs, r.value, {"dest"})
    ensures r.Ok? && Lookup(fs, "dest").Some? ==> r.value == fs
    ensures r.Ok? && Lookup(fs, "dest").None? ==> Lookup(r.value, "dest") == Get(metadata.value, "from")
  {
    if Lookup(fs, "dest").Some? then Ok(fs)
    else
      var from :- Read(metadata, "from");
      if from.None? then Err(Thrown(MissingDest)) else Ok(Update(fs, "dest", from.value))
  }

  /** Step 2: a present `verkey` gets its full form, computed against `dest` */
  function WithVerkeyFull(lib: VerkeyLib, fs: seq<Field>): (r: seq<Field>)
    requires Lookup(fs, "dest").Some?
    ensures KeepsOutside(fs, r, {"verkeyFull"})
    ensures Lookup(fs, "verkey").Some? ==>
              Lookup(r, "verkeyFull") == Some(GetFullVerkey(lib, Lookup(fs, "dest").value, Lookup(fs, "verkey").value))
    ensures Lookup(fs, "verkey").None? ==> r == fs
  {
    var verkey := Lookup(fs, "verkey");
    if verkey.Some? then Update(fs, "verkeyFull", GetFullVerkey(lib, Lookup(fs, "dest").value, verkey.value))
    else fs
  }

  /** Step 3: a present `role` gets its symbolic action */
  function WithRoleAction(fs: seq<Field>): (r: Result<seq<Field>, Error>)
    ensures r.Ok? <==> Lookup(fs, "role").None? || RoleActionOf(Lookup(fs, "role").value).Ok?
    ensures r.Err? ==> r.error == TypeError
    ensures r.Ok? ==> KeepsOutside(fs, r.value, {"roleAction"})
    ensures r.Ok? && Lookup(fs, "role").Some? ==>
              Lookup(r.value, "roleAction") == Some(JStr(RoleActionOf(Lookup(fs, "role").value).value.Name()))
    ensures r.Ok? && Lookup(fs, "role").None? ==> r.value == fs
  {
    var role := Lookup(fs, "role");
    if role.Some? then
      var action :- RoleActionOf(role.value);
      Ok(Update(fs, "roleAction", JStr(action.Name())))
    else Ok(fs)
  }

  /** Writes the extracted endpoint and stamp, each only when defined */
  function WithParsed(fs: seq<Field>, parsed: RawData.ParsedRaw): (r: seq<Field>)
    ensures KeepsOutside(fs, r, {"endpoint", "lastUpdated"})
    ensures Lookup(r, "endpoint")
              == (if parsed.endpoint.Some? then Some(JStr(parsed.endpoint.value)) else Lookup(fs, "endpoint"))
    ensures Lookup(r, "lastUpdated")
              == (if parsed.lastUpdated.Some? then parsed.lastUpdated else Lookup(fs, "lastUpdated"))
  {
    var fs1 := if parsed.endpoint.Some? then Update(fs, "endpoint", JStr(parsed.endpoint.value)) else fs;
    if parsed.lastUpdated.Some? then Update(fs1, "lastUpdated", parsed.lastUpdated.value) else fs1
  }

  /** Step 4: a truthy `raw` contributes whatever endpoint and stamp it yields;
      a falsy one is not parsed, and yields neither field */
  function WithRawFields(parse: Json -> Option<Json>, fs: seq<Field>): seq<Field> {
    WithParsed(fs, ParsedRawOf(parse, Lookup(fs, "raw")))
  }

  /** The body of `transformNymAttrib` on an object-valued `txn.data` with
      fields fs, given `txn.metadata`: the four steps in source order */
  function EnrichData(lib: VerkeyLib, parse: Json -> Option<Json>, fs: seq<Field>, metadata: Option<Json>)
    : (r: Result<seq<Field>, Error>)
    ensures r.Err? ==> r.error == (if Lookup(fs, "dest").None? && MetadataFrom(metadata).None?
                                   then MissingDestError(metadata) else TypeError)
  {
    var fs1 :- WithDest(fs, metadata);
    var fs2 := WithVerkeyFull(lib, fs1);
    var fs3 :- WithRoleAction(fs2);
    Ok(WithRawFields(parse, fs3))
  }

  /** `tx.txn` */
  function TxnOf(tx: Json): Option<Json> {
    Get(tx, "txn")
  }

  /** `tx.txn.data`, or `None` where the path is missing */
  function DataOf(tx: Json): Option<Json> {
    if TxnOf(tx).Some? then Get(TxnOf(tx).value, "data") else None
  }

  /** `tx.txn.metadata.from`, or `None` where the path is missing */
  function FromOf(tx: Json): Option<Json> {
    var md := if TxnOf(tx).Some? then Get(TxnOf(tx).value, "metadata") else None;
    if md.Some? then Get(md.value, "from") else None
  }

  /** `transformNymAttrib` */
  function TransformNymAttrib(lib: VerkeyLib, parse: Json -> Option<Json>, tx: Json): (r: Result<Json, Error>)
    ensures tx.JNull? ==> r == Err(TypeError)
    ensures !tx.JNull? && !Truthy(DataOf(tx)) ==> r == Ok(tx)
  {
    var txn :- Read(Some(tx), "txn");
    if !Truthy(txn) then Ok(tx)
    else
      // a truthy `txn` is neither undefined nor null, so its reads cannot throw
      var data := Get(txn.value, "data");
      if !Truthy(data) then Ok(tx)
      else
        var metadata := Get(txn.value, "metadata");
        if data.value.JObj? then
          var fs' :- EnrichData(lib, parse, data.value.fields, metadata);
          Ok(JObj(Update(tx.fields, "txn", JObj(Update(txn.value.fields, "data", JObj(fs'))))))
        else
          // `data.dest` of a primitive or an array is undefined, so `metadata.from`
          // is still required; the writes that follow are invisible in JSON
          var from :- Read(metadata, "from");
          if from.None? then Err(Thrown(MissingDest)) else Ok(tx)
  }

  /** The value `dest` ends up with: the original one, else `metadata.from` */
  function DestAfter(fs: seq<Field>, from: Option<Json>): Option<Json> {
    if Lookup(fs, "dest").Some? then Lookup(fs, "dest") else from
  }

  /** `dest` and `verkeyFull` of the enriched fields fs', against the original fields fs */
  ghost predicate DestAndVerkeyAs(lib: VerkeyLib, fs: seq<Field>, from: Option<Json>, fs': seq<Field>) {
    var dest := DestAfter(fs, from);
    var verkey := Lookup(fs, "verkey");
    && dest.Some?
    && Lookup(fs', "dest") == dest
    && Lookup(fs', "verkeyFull")
         == (if verkey.Some? then Some(GetFullVerkey(lib, dest.value, verkey.value)) else Lookup(fs, "verkeyFull"))
  }

  /** `roleAction` of the enriched fields fs', against the original fields fs */
  ghost predicate RoleAs(fs: seq<Field>, fs': seq<Field>) {
    var role := Lookup(fs, "role");
    && (role.Some? ==> RoleActionOf(role.value).Ok?
                       && Lookup(fs', "roleAction") == Some(JStr(RoleActionOf(role.value).value.Name())))
    && (role.None? ==> Lookup(fs', "roleAction") == Lookup(fs, "roleAction"))
  }

  /** `endpoint` and `lastUpdated` of the enriched fields fs', against the original fields fs */
  ghost predicate RawAs(parse: Json -> Option<Json>, fs: seq<Field>, fs': seq<Field>) {
    var parsed := ParsedRawOf(parse, Lookup(fs, "raw"));
    && Lookup(fs', "endpoint")
         == (if parsed.endpoint.Some? then Some(JStr(parsed.endpoint.value)) else Lookup(fs, "endpoint"))
    && Lookup(fs', "lastUpdated")
         == (if parsed.lastUpdated.Some? then parsed.lastUpdated else Lookup(fs, "lastUpdated"))
  }

  /** The enriched fields fs' of `txn.data`, described key by key against the
      original fields fs and `metadata.from` */
  ghost predicate EnrichedAs(lib: VerkeyLib, parse: Json -> Option<Json>, fs: seq<Field>, from: Option<Json>, fs': seq<Field>)
  {
    && KeepsOutside(fs, fs', EnrichedKeys)
    && DestAndVerkeyAs(lib, fs, from, fs')
    && RoleAs(fs, fs')
    && RawAs(parse, fs, fs')
  }

  /** `metadata.from`, or `None` where `metadata` is missing */
  function MetadataFrom(metadata: Option<Json>): Option<Json> {
    if metadata.Some? then Get(metadata.value, "from") else None
  }

  /** The enrichment fails exactly when `dest` and `metadata.from` are both
      missing, or when the role is neither null nor a string */
  lemma EnrichDataFails(lib: VerkeyLib, parse: Json -> Option<Json>, fs: seq<Field>, metadata: Option<Json>)
    ensures var role := Lookup(fs, "role");
            var ok := (Lookup(fs, "dest").Some? || MetadataFrom(metadata).Some?)
                      && (role.Some? ==> RoleActionOf(role.value).Ok?);
            EnrichData(lib, parse, fs, metadata).Ok? <==> ok
  {
    var fs1r := WithDest(fs, metadata);
    if fs1r.Ok? {
      var fs2 := WithVerkeyFull(lib, fs1r.value);
      assert Lookup(fs2, "role") == Lookup(fs, "role");
    }
  }

  /** fs1, fs2, fs3 and fs' are the values after each of the four steps */
  ghost predicate Stages(lib: VerkeyLib, parse: Json -> Option<Json>, fs: seq<Field>, metadata: Option<Json>,
                         fs1: seq<Field>, fs2: seq<Field>, fs3: seq<Field>, fs': seq<Field>) {
    && WithDest(fs, metadata) == Ok(fs1)
    && fs2 == WithVerkeyFull(lib, fs1)
    && WithRoleAction(fs2) == Ok(fs3)
    && fs' == WithRawFields(parse, fs3)
  }

  /** A successful enrichment went through all four steps */
  lemma EnrichDataStages(lib: VerkeyLib, parse: Json -> Option<Json>, fs: seq<Field>, metadata: Option<Json>, fs': seq<Field>)
    returns (fs1: seq<Field>, fs2: seq<Field>, fs3: seq<Field>)
    requires EnrichData(lib, parse, fs, metadata) == Ok(fs')
    ensures Stages(lib, parse, fs, metadata, fs1, fs2, fs3, fs')
  {
    fs1 := WithDest(fs, metadata).value;
    fs2 := WithVerkeyFull(lib, fs1);
    fs3 := WithRoleAction(fs2).value;
  }

  lemma KeepsThroughStages(lib: VerkeyLib, parse: Json -> Option<Json>, fs: seq<Field>, metadata: Option<Json>,
                           fs1: seq<Field>, fs2: seq<Field>, fs3: seq<Field>, fs': seq<Field>)
    requires Stages(lib, parse, fs, metadata, fs1, fs2, fs3, fs')
    ensures KeepsOutside(fs, fs', EnrichedKeys)
  {
  }

  lemma DestThroughStages(lib: VerkeyLib, parse: Json -> Option<Json>, fs: seq<Field>, metadata: Option<Json>,
                          fs1: seq<Field>, fs2: seq<Field>, fs3: seq<Field>, fs': seq<Field>)
    requires Stages(lib, parse, fs, metadata, fs1, fs2, fs3, fs')
    ensures DestAfter(fs, MetadataFrom(metadata)).Some?
    ensures Lookup(fs', "dest") == DestAfter(fs, MetadataFrom(metadata))
  {
    assert Lookup(fs2, "dest") == Lookup(fs1, "dest");
    assert Lookup(fs3, "dest") == Lookup(fs2, "dest");
  }

  lemma VerkeyFullThroughStages(lib: VerkeyLib, parse: Json -> Option<Json>, fs: seq<Field>, metadata: Option<Json>,
                                fs1: seq<Field>, fs2: seq<Field>, fs3: seq<Field>, fs': seq<Field>)
    requires Stages(lib, parse, fs, metadata, fs1, fs2, fs3, fs')
    requires DestAfter(fs, MetadataFrom(metadata)).Some?
    ensures var verkey := Lookup(fs, "verkey");
            Lookup(fs', "verkeyFull")
              == (if verkey.Some? then Some(GetFullVerkey(lib, DestAfter(fs, MetadataFrom(metadata)).value, verkey.value))
                  else Lookup(fs, "verkeyFull"))
  {
    assert Lookup(fs1, "verkey") == Lookup(fs, "verkey");
    assert Lookup(fs1, "verkeyFull") == Lookup(fs, "verkeyFull");
    assert Lookup(fs3, "verkeyFull") == Lookup(fs2, "verkeyFull");
  }

  lemma RoleThroughStages(lib: VerkeyLib, parse: Json -> Option<Json>, fs: seq<Field>, metadata: Option<Json>,
                          fs1: seq<Field>, fs2: seq<Field>, fs3: seq<Field>, fs': seq<Field>)
    requires Stages(lib, parse, fs, metadata, fs1, fs2, fs3, fs')
    ensures RoleAs(fs, fs')
  {
    assert Lookup(fs2, "role") == Lookup(fs, "role");
    assert Lookup(fs2, "roleAction") == Lookup(fs, "roleAction");
    assert Lookup(fs', "roleAction") == Lookup(fs3, "roleAction");
  }

  lemma RawThroughStages(lib: VerkeyLib, parse: Json -> Option<Json>, fs: seq<Field>, metadata: Option<Json>,
                         fs1: seq<Field>, fs2: seq<Field>, fs3: seq<Field>, fs': seq<Field>)
    requires Stages(lib, parse, fs, metadata, fs1, fs2, fs3, fs')
    ensures RawAs(parse, fs, fs')
  {
    assert Lookup(fs2, "raw") == Lookup(fs, "raw");
    assert Lookup(fs2, "endpoint") == Lookup(fs, "endpoint");
    assert Lookup(fs2, "lastUpdated") == Lookup(fs, "lastUpdated");
    assert Lookup(fs3, "raw") == Lookup(fs, "raw");
    assert Lookup(fs3, "endpoint") == Lookup(fs, "endpoint");
    assert Lookup(fs3, "lastUpdated") == Lookup(fs, "lastUpdated");
  }

  /** Where the enrichment of an object-valued `data` fails, and what it writes when it succeeds */
  lemma EnrichDataSpec(lib: VerkeyLib, parse: Json -> Option<Json>, fs: seq<Field>, metadata: Option<Json>)
    ensures var role := Lookup(fs, "role");
            var r := EnrichData(lib, parse, fs, metadata);
            && (r.Ok? <==> (Lookup(fs, "dest").Some? || MetadataFrom(metadata).Some?)
                           && (role.Some? ==> RoleActionOf(role.value).Ok?))
            && (r.Ok? ==> EnrichedAs(lib, parse, fs, MetadataFrom(metadata), r.value))
  {
    EnrichDataFails(lib, parse, fs, metadata);
    var r := EnrichData(lib, parse, fs, metadata);
    if r.Ok? {
      var fs1, fs2, fs3 := EnrichDataStages(lib, parse, fs, metadata, r.value);
      KeepsThroughStages(lib, parse, fs, metadata, fs1, fs2, fs3, r.value);
      DestThroughStages(lib, parse, fs, metadata, fs1, fs2, fs3, r.value);
      VerkeyFullThroughStages(lib, parse, fs, metadata, fs1, fs2, fs3, r.value);
      RoleThroughStages(lib, parse, fs, metadata, fs1, fs2, fs3, r.value);
      RawThroughStages(lib, parse, fs, metadata, fs1, fs2, fs3, r.value);
    }
  }

  /** tx' is tx with only `txn.data` replaced, every other member in place */
  ghost predicate SameOutsideData(tx: Json, tx': Json) {
    && tx.JObj? && tx'.JObj?
    && Keys(tx'.fields) == Keys(tx.fields)
    && (forall k {:trigger Get(tx', k)} :: k != "txn" ==> Get(tx', k) == Get(tx, k))
    && TxnOf(tx).Some? && TxnOf(tx).value.JObj?
    && TxnOf(tx').Some? && TxnOf(tx').value.JObj?
    && Keys(TxnOf(tx').value.fields) == Keys(TxnOf(tx).value.fields)
    && (forall k {:trigger Get(TxnOf(tx').value, k)} :: k != "data" ==> Get(TxnOf(tx').value, k) == Get(TxnOf(tx).value, k))
  }

  /** Writing new fields into an existing object-valued `txn.data` changes nothing else */
  lemma ReplaceDataKeepsOutside(tx: Json, fs': seq<Field>)
    requires DataOf(tx).Some? && DataOf(tx).value.JObj?
    ensures var tx' := JObj(Update(tx.fields, "txn", JObj(Update(TxnOf(tx).value.fields, "data", JObj(fs')))));
            SameOutsideData(tx, tx') && DataOf(tx') == Some(JObj(fs'))
  {
  }

  /** The transform of a transaction whose `txn.data` is truthy and not an object:
      only the `metadata.from` requirement is left, and nothing visible changes */
  lemma TransformNonObjectData(lib: VerkeyLib, parse: Json -> Option<Json>, tx: Json)
    requires Truthy(DataOf(tx)) && !DataOf(tx).value.JObj?
    ensures var r := TransformNymAttrib(lib, parse, tx);
            && (r.Err? <==> FromOf(tx).None?)
            && (r.Err? ==> r.error == MissingDestError(Get(TxnOf(tx).value, "metadata")))
            && (r.Ok? ==> r.value == tx)
  {
  }

  /** The transform of a transaction whose `txn.data` is an object is the enrichment
      of its fields, written back in place */
  lemma TransformObjectData(lib: VerkeyLib, parse: Json -> Option<Json>, tx: Json)
    requires Truthy(DataOf(tx)) && DataOf(tx).value.JObj?
    ensures var e := EnrichData(lib, parse, DataOf(tx).value.fields, Get(TxnOf(tx).value, "metadata"));
            var r := TransformNymAttrib(lib, parse, tx);
            && (r.Ok? <==> e.Ok?)
            && (r.Ok? ==> r.value == JObj(Update(tx.fields, "txn", JObj(Update(TxnOf(tx).value.fields, "data", JObj(e.value))))))
            && MetadataFrom(Get(TxnOf(tx).value, "metadata")) == FromOf(tx)
  {
  }

  /** The transform of a transaction with a truthy `txn.data`: it fails exactly
      when neither `dest` nor `metadata.from` is defined, or when the role is
      neither null nor a string; otherwise it changes nothing outside
      `txn.data`, keeps every original field of `data` in place (only the
      enriched keys may change), and writes what `EnrichedAs` states. */
  lemma TransformSpec(lib: VerkeyLib, parse: Json -> Option<Json>, tx: Json)
    requires Truthy(DataOf(tx))
    ensures var r := TransformNymAttrib(lib, parse, tx);
            var data := DataOf(tx).value;
            var destMissing := !data.JObj? || Lookup(data.fields, "dest").None?;
            var badRole := data.JObj? && Lookup(data.fields, "role").Some?
                           && RoleActionOf(Lookup(data.fields, "role").value).Err?;
            && (r.Err? <==> (destMissing && FromOf(tx).None?) || badRole)
            && (r.Err? ==> r.error == (if destMissing && FromOf(tx).None?
                                       then MissingDestError(Get(TxnOf(tx).value, "metadata")) else TypeError))
            && (r.Ok? && !data.JObj? ==> r.value == tx)
            && (r.Ok? && data.JObj? ==>
                  && SameOutsideData(tx, r.value)
                  && DataOf(r.value).Some? && DataOf(r.value).value.JObj?
                  && EnrichedAs(lib, parse, data.fields, FromOf(tx), DataOf(r.value).value.fields))
  {
    var data := DataOf(tx).value;
    if data.JObj? {
      var metadata := Get(TxnOf(tx).value, "metadata");
      TransformObjectData(lib, parse, tx);
      EnrichDataSpec(lib, parse, data.fields, metadata);
      var e := EnrichData(lib, parse, data.fields, metadata);
      if e.Ok? {
        ReplaceDataKeepsOutside(tx, e.value);
      }
    } else {
      TransformNonObjectData(lib, parse, tx);
    }
  }

  /** A full (non-abbreviated) verification key is copied unchanged into `verkeyFull` */
  lemma FullVerkeyCopied(lib: VerkeyLib, parse: Json -> Option<Json>, tx: Json)
    requires Truthy(DataOf(tx)) && DataOf(tx).value.JObj?
    requires Lookup(DataOf(tx).value.fields, "verkey").Some?
    requires !lib.isAbbreviated(Lookup(DataOf(tx).value.fields, "verkey").value)
    ensures var r := TransformNymAttrib(lib, parse, tx);
            r.Ok? ==> Get(DataOf(r.value).value, "verkeyFull") == Lookup(DataOf(tx).value.fields, "verkey")
  {
    TransformSpec(lib, parse, tx);
  }

  /** An abbreviated key is expanded against the (possibly substituted) `dest` */
  lemma AbbreviatedVerkeyExpanded(lib: VerkeyLib, parse: Json -> Option<Json>, tx: Json)
    requires Truthy(DataOf(tx)) && DataOf(tx).value.JObj?
    requires Lookup(DataOf(tx).value.fields, "verkey").Some?
    requires lib.isAbbreviated(Lookup(DataOf(tx).value.fields, "verkey").value)
    ensures var r := TransformNymAttrib(lib, parse, tx);
            r.Ok? ==>
            var data' := DataOf(r.value).value;
            && Get(data', "dest").Some?
            && Get(data', "verkeyFull")
                 == Some(lib.compose(Get(data', "dest").value, Lookup(DataOf(tx).value.fields, "verkey").value))
  {
    TransformSpec(lib, parse, tx);
  }

  /** A present `dest` is never changed; an absent one becomes `metadata.from` */
  lemma DestFilledFromMetadata(lib: VerkeyLib, parse: Json -> Option<Json>, tx: Json)
    requires Truthy(DataOf(tx)) && DataOf(tx).value.JObj?
    ensures var r := TransformNymAttrib(lib, parse, tx);
            r.Ok? ==>
            var dest := Lookup(DataOf(tx).value.fields, "dest");
            var dest' := Get(DataOf(r.value).value, "dest");
            && (dest.Some? ==> dest' == dest)
            && (dest.None? ==> dest' == FromOf(tx) && dest'.Some?)
  {
    TransformSpec(lib, parse, tx);
  }

  /** `endpoint` and `lastUpdated` are written only when `raw` is truthy and the
      extraction defined them */
  lemma RawFieldsOnlyFromTruthyRaw(lib: VerkeyLib, parse: Json -> Option<Json>, tx: Json)
    requires Truthy(DataOf(tx)) && DataOf(tx).value.JObj?
    ensures var r := TransformNymAttrib(lib, parse, tx);
            r.Ok? ==>
            var fs := DataOf(tx).value.fields;
            var data' := DataOf(r.value).value;
            && (Get(data', "endpoint") != Lookup(fs, "endpoint") ==>
                  Truthy(Lookup(fs, "raw")) && ParsedRawOf(parse, Lookup(fs, "raw")).endpoint.Some?)
            && (Get(data', "lastUpdated") != Lookup(fs, "lastUpdated") ==>
                  Truthy(Lookup(fs, "raw")) && ParsedRawOf(parse, Lookup(fs, "raw")).lastUpdated.Some?)
  {
    TransformSpec(lib, parse, tx);
  }

  /** The ATTRIB scenario of the ledger's documentation: no `dest`, a
      `metadata.from`, and a raw endpoint; `dest` becomes the sender and
      `endpoint` the extracted URL */
  lemma AttribScenario(lib: VerkeyLib, parse: Json -> Option<Json>, from: string, rawText: Json)
    requires parse(rawText) == Some(JObj([Field("endpoint", JObj([Field("endpoint", JStr("https://example.org"))]))]))
    requires rawText.JStr? && rawText.s != ""
    ensures var tx := JObj([
              Field("txn", JObj([
                Field("data", JObj([Field("raw", rawText)])),
                Field("metadata", JObj([Field("from", JStr(from))]))]))]);
            var r := TransformNymAttrib(lib, parse, tx);
            && r.Ok?
            && Get(DataOf(r.value).value, "dest") == Some(JStr(from))
            && Get(DataOf(r.value).value, "endpoint") == Some(JStr("https://example.org"))
  {
    var tx := JObj([
              Field("txn", JObj([
                Field("data", JObj([Field("raw", rawText)])),
                Field("metadata", JObj([Field("from", JStr(from))]))]))]);
    var data := [Field("raw", rawText)];
    var metadata := JObj([Field("from", JStr(from))]);
    var txnFields := [Field("data", JObj(data)), Field("metadata", metadata)];
    assert TxnOf(tx) == Some(JObj(txnFields));
    assert DataOf(tx) == Some(JObj(data));
    assert Lookup(txnFields, "metadata") == Lookup(txnFields[1..], "metadata") == Some(metadata);
    assert FromOf(tx) == Some(JStr(from));
    RawData.EndpointExample();
    assert ParsedRawOf(parse, Lookup(data, "raw")).endpoint == Some("https://example.org");
    TransformSpec(lib, parse, tx);
  }
}

=== FILE: raw_data.dfy ===
/** `tryParseRawData`: best-effort extraction of a service endpoint and a
    `last_updated` stamp from the `raw` payload of an ATTRIB transaction.

    JSON.parse is a library call; the model receives its outcome, `None` when
    it threw. Every failure is swallowed: the function always returns. */
module RawData {
  import opened Wrappers
  import opened Js

  datatype ParsedRaw = ParsedRaw(endpoint: Option<string>, lastUpdated: Option<Json>)

  /** `parsed.k` on a value that is already known to be truthy, so the read cannot throw */
  function Member(v: Option<Json>, k: string): Option<Json> {
    if v.Some? then Get(v.value, k) else None
  }

  /** The value the if/else chain assigns to `endpoint`, before the string check */
  function EndpointCandidate(p: Json): (r: Option<Json>)
    ensures r.Some? ==> Truthy(r)
    ensures !Truthy(Get(p, "endpoint")) ==> r == (if Truthy(Get(p, "url")) then Get(p, "url") else None)
    ensures Truthy(Get(p, "endpoint")) && r.Some? ==> !Get(p, "endpoint").value.JStr?
  {
    var e := Get(p, "endpoint");
    if Truthy(e) then
      var ee := Member(e, "endpoint");
      if Truthy(ee) then
        var eee := Member(ee, "endpoint");
        if Truthy(eee) then eee else ee  // the nested form of a malformed transaction
      else if Truthy(Member(e, "agent")) then Member(e, "agent")
      else if Truthy(Member(e, "xdi")) then Member(e, "xdi")
      else if Truthy(Member(e, "processor_url")) then Member(e, "processor_url")
      else if Truthy(Member(e, "controller_url")) then Member(e, "controller_url")
      else None
    else if Truthy(Get(p, "url")) then Get(p, "url")
    else None
  }

  /** `tryParseRawData`, given the outcome of JSON.parse */
  function TryParseRawData(parsed: Option<Json>): (r: ParsedRaw)
    ensures r.endpoint.Some? || r.lastUpdated.Some? ==> parsed.Some? && parsed.value.JObj?
  {
    if parsed.None? then ParsedRaw(None, None)      // JSON.parse threw
    else if parsed.value.JNull? then ParsedRaw(None, None)  // `null.endpoint` threw
    else
      var p := parsed.value;
      var candidate := EndpointCandidate(p);
      var lastUpdated := Get(p, "last_updated");
      ParsedRaw(
        if candidate.Some? && candidate.value.JStr? then Some(candidate.value.s) else None,  // sanitize
        if Truthy(lastUpdated) then lastUpdated else None)
  }

  /** Nothing comes out of text that is not JSON or is `null`; otherwise the endpoint
      is the chosen candidate when that is a string, and `last_updated` is kept when truthy */
  lemma TryParseRawDataSpec(parsed: Option<Json>)
    ensures var r := TryParseRawData(parsed);
            && (parsed.None? || parsed == Some(JNull) ==> r == ParsedRaw(None, None))
            && (r.endpoint.Some? <==>
                  parsed.Some? && parsed.value != JNull && EndpointCandidate(parsed.value).Some?
                  && EndpointCandidate(parsed.value).value.JStr?)
            && (r.endpoint.Some? ==> EndpointCandidate(parsed.value) == Some(JStr(r.endpoint.value)))
            && (r.lastUpdated.Some? <==> parsed.Some? && Truthy(Get(parsed.value, "last_updated")))
            && (r.lastUpdated.Some? ==> r.lastUpdated == Get(parsed.value, "last_updated"))
  {
  }

  /** The extraction restated as a preference list: the first truthy value along
      these member paths is taken. The `url` member is in the list only when
      `endpoint` is falsy. */
  function PreferredPaths(p: Json): seq<seq<string>> {
    if Truthy(Get(p, "endpoint")) then
      [["endpoint", "endpoint", "endpoint"], ["endpoint", "endpoint"], ["endpoint", "agent"],
       ["endpoint", "xdi"], ["endpoint", "processor_url"], ["endpoint", "controller_url"]]
    else
      [["url"]]
  }

  /** The first truthy value at one of the paths */
  function FirstTruthy(v: Json, paths: seq<seq<string>>): (r: Option<Json>)
    ensures r.Some? ==> Truthy(r)
    ensures r.Some? <==> exists i :: 0 <= i < |paths| && Truthy(AtPath(Some(v), paths[i]))
  {
    if paths == [] then None
    else if Truthy(AtPath(Some(v), paths[0])) then AtPath(Some(v), paths[0])
    else
      var r := FirstTruthy(v, paths[1..]);
      assert (exists i :: 0 <= i < |paths| && Truthy(AtPath(Some(v), paths[i])))
        ==> exists i :: 0 <= i < |paths[1..]| && Truthy(AtPath(Some(v), paths[1..][i])) by {
        if exists i :: 0 <= i < |paths| && Truthy(AtPath(Some(v), paths[i])) {
          var i :| 0 <= i < |paths| && Truthy(AtPath(Some(v), paths[i]));
          assert i > 0;
          assert paths[1..][i - 1] == paths[i];
        }
      }
      r
  }

  /** The nested if/else chain is exactly "first truthy value along the preference list" */
  lemma EndpointIsFirstPreferred(p: Json)
    ensures EndpointCandidate(p) == FirstTruthy(p, PreferredPaths(p))
  {
    var paths := PreferredPaths(p);
    var e := Get(p, "endpoint");
    if Truthy(e) {
      assert AtPath(Some(p), ["endpoint"]) == e;
      assert AtPath(Some(p), paths[0]) == Member(Member(e, "endpoint"), "endpoint") by {
        assert paths[0][1..] == ["endpoint", "endpoint"];
        assert paths[0][1..][1..] == ["endpoint"];
      }
      assert AtPath(Some(p), paths[1]) == Member(e, "endpoint") by {
        assert paths[1][1..] == ["endpoint"];
      }
      assert AtPath(Some(p), paths[2]) == Member(e, "agent") by {
        assert paths[2][1..] == ["agent"];
      }
      assert AtPath(Some(p), paths[3]) == Member(e, "xdi") by {
        assert paths[3][1..] == ["xdi"];
      }
      assert AtPath(Some(p), paths[4]) == Member(e, "processor_url") by {
        assert paths[4][1..] == ["processor_url"];
      }
      assert AtPath(Some(p), paths[5]) == Member(e, "controller_url") by {
        assert paths[5][1..] == ["controller_url"];
      }
      var t1 := paths[1..];
      var t2 := t1[1..];
      var t3 := t2[1..];
      var t4 := t3[1..];
      var t5 := t4[1..];
      assert t1[0] == paths[1] && t2[0] == paths[2] && t3[0] == paths[3];
      assert t4[0] == paths[4] && t5[0] == paths[5] && t5[1..] == [];
      assert FirstTruthy(p, t5) == if Truthy(Member(e, "controller_url")) then Member(e, "controller_url") else None;
      assert FirstTruthy(p, t4) == if Truthy(Member(e, "processor_url")) then Member(e, "processor_url") else FirstTruthy(p, t5);
      assert FirstTruthy(p, t3) == if Truthy(Member(e, "xdi")) then Member(e, "xdi") else FirstTruthy(p, t4);
      assert FirstTruthy(p, t2) == if Truthy(Member(e, "agent")) then Member(e, "agent") else FirstTruthy(p, t3);
      assert FirstTruthy(p, t1) == if Truthy(Member(e, "endpoint")) then Member(e, "endpoint") else FirstTruthy(p, t2);
      if !Truthy(Member(e, "endpoint")) {
        assert !Truthy(Member(Member(e, "endpoint"), "endpoint"));
      }
    } else {
      assert AtPath(Some(p), paths[0]) == Get(p, "url");
      assert paths[1..] == [];
    }
  }

  /** `url` is consulted only when `endpoint` is falsy: with a truthy `endpoint`
      the top-level `url` member can be anything without changing the result */
  lemma UrlIgnoredUnderEndpoint(fs: seq<Field>, url: Json)
    requires Truthy(Lookup(fs, "endpoint"))
    ensures TryParseRawData(Some(JObj(Update(fs, "url", url)))) == TryParseRawData(Some(JObj(fs)))
  {
    var p, p' := JObj(fs), JObj(Update(fs, "url", url));
    assert Get(p', "endpoint") == Get(p, "endpoint");
    assert Get(p', "last_updated") == Get(p, "last_updated");
    assert EndpointCandidate(p') == EndpointCandidate(p);
  }

  /** `{"endpoint":{"endpoint":{"endpoint":"https://x"}}}` gives "https://x" */
  lemma NestedEndpointExample()
    ensures TryParseRawData(Some(JObj([Field("endpoint", JObj([Field("endpoint",
              JObj([Field("endpoint", JStr("https://x"))]))]))]))).endpoint == Some("https://x")
  {
  }

  /** `{"endpoint":{"endpoint":"https://example.org"}}` gives "https://example.org" */
  lemma EndpointExample()
    ensures TryParseRawData(Some(JObj([Field("endpoint", JObj([Field("endpoint",
              JStr("https://example.org"))]))]))).endpoint == Some("https://example.org")
  {
  }

  /** A non-string at the preferred place is dropped, and the chain does not
      fall through to `agent`: `{"endpoint":{"endpoint":{"x":1},"agent":"a"}}` gives nothing */
  lemma NonStringEndpointExample()
    ensures TryParseRawData(Some(JObj([Field("endpoint", JObj([
              Field("endpoint", JObj([Field("x", JNum(1.0))])),
              Field("agent", JStr("a"))]))]))).endpoint == None
  {
  }
}

=== FILE: replies.dfy ===
/** The replies the read-replica API sends back, rebuilt from stored
    transactions in the shape of the ledger's own replies: `op: "REPLY"`, a
    `result` holding the request type code, the caller's `identifier` and
    `reqId`, and the kind-specific payload.

    Replies are typed values whose constructor arguments are the JSON members
    of the reply; an `Option` member that is `None` is left out of the JSON,
    as JSON.stringify drops `undefined`. Every reply of a lookup kind also
    carries a constant `state_proof: {}`, which is not represented. */
module Replies {
  import opened Wrappers
  import opened Js
  import RevocDelta
  import QueryFilters

  // ---- Request type codes ----

  datatype TxKind =
    | GetTxn | Nym | Attrib | Schema | ClaimDef
    | RevocRegDef | RevocRegEntry | RevocRegDelta | TaaAml | Taa | AuthRule

  /** The `type` each reply carries: the ledger's code of the matching read request */
  function TypeCode(k: TxKind): (code: string)
    ensures KindOfCode(code) == Some(k)
  {
    match k
    case GetTxn => "3"
    case Nym => "105"
    case Attrib => "104"
    case Schema => "107"
    case ClaimDef => "108"
    case RevocRegDef => "115"
    case RevocRegEntry => "116"
    case RevocRegDelta => "117"
    case TaaAml => "7"
    case Taa => "6"
    case AuthRule => "121"
  }

  /** The kind a type code stands for */
  function KindOfCode(code: string): Option<TxKind> {
    if code == "3" then Some(GetTxn)
    else if code == "105" then Some(Nym)
    else if code == "104" then Some(Attrib)
    else if code == "107" then Some(Schema)
    else if code == "108" then Some(ClaimDef)
    else if code == "115" then Some(RevocRegDef)
    else if code == "116" then Some(RevocRegEntry)
    else if code == "117" then Some(RevocRegDelta)
    else if code == "7" then Some(TaaAml)
    else if code == "6" then Some(Taa)
    else if code == "121" then Some(AuthRule)
    else None
  }

  /** The code table and its inverse agree in both directions, so no two kinds share a code */
  lemma TypeCodeRoundTrip(k: TxKind, code: string)
    ensures KindOfCode(TypeCode(k)) == Some(k)
    ensures KindOfCode(code) == Some(k) ==> TypeCode(k) == code
  {
  }

  lemma TypeCodesDistinct(k1: TxKind, k2: TxKind)
    ensures TypeCode(k1) == TypeCode(k2) ==> k1 == k2
  {
    TypeCodeRoundTrip(k1, TypeCode(k2));
  }

  // ---- getSubledger ----

  /** `getSubledger`: `['pool', 'domain', 'config'][ledgerId]`, undefined out of range */
  function GetSubledger(ledgerId: int): (r: Option<string>)
    ensures r.Some? <==> 0 <= ledgerId < 3
  {
    if 0 <= ledgerId < 3 then Some(["pool", "domain", "config"][ledgerId]) else None
  }

  /** The ledger id of a subledger name */
  function LedgerIdOf(name: string): Option<int> {
    if name == "pool" then Some(0)
    else if name == "domain" then Some(1)
    else if name == "config" then Some(2)
    else None
  }

  /** 0, 1 and 2 name the pool, domain and config ledgers, and the mapping is a bijection */
  lemma SubledgerRoundTrip(ledgerId: int, name: string)
    ensures GetSubledger(0) == Some("pool") && GetSubledger(1) == Some("domain") && GetSubledger(2) == Some("config")
    ensures GetSubledger(ledgerId).Some? ==> LedgerIdOf(GetSubledger(ledgerId).value) == Some(ledgerId)
    ensures LedgerIdOf(name).Some? ==> GetSubledger(LedgerIdOf(name).value) == Some(name)
  {
  }

  // ---- Reply values ----

  /** The members of `result` the replies share; `seqNo` and `txnTime` are absent from some kinds */
  datatype Header = Header(typ: string, identifier: string, reqId: string, seqNo: Option<Json>, txnTime: Option<Json>)

  /** `accum_to` / `accum_from` of a delta reply */
  datatype Accum = Accum(
    revocDefType: Option<Json>, revocRegDefId: Option<Json>,
    txnTime: Option<Json>, seqNo: Option<Json>, accum: Option<Json>)

  /** `accum_from`: the falsy value that stood for the missing `from` entry, or the accumulator */
  datatype AccumFrom = AccumFalsy(falsy: Option<Json>) | AccumOf(accum: Accum)

  datatype DeltaValue = DeltaValue(accumTo: Accum, revoked: Json, issued: Json, accumFrom: AccumFrom)

  datatype DeltaData = DeltaData(
    revocDefType: Option<Json>, revocRegDefId: Option<Json>,
    value: DeltaValue, stateProofFrom: Option<Json>)

  datatype Reply =
    | EmptyReply  // `{}`
    | TxnReply(result: Header, ver: Json, txn: Json, txnMetadata: Json,
               reqSignature: Option<Json>, rootHash: Option<Json>, auditPath: Option<Json>)
    | NymReply(result: Header, data: Option<Json>, dest: Option<Json>)
    | AttribReply(result: Header, data: Option<Json>, dest: Option<Json>, raw: Option<string>)
    | SchemaReply(result: Header, data: Option<Json>, dest: Option<Json>)
    | ClaimDefReply(result: Header, data: Option<Json>, signatureType: string, origin: string, ref: string, tag: string)
    | RevocRegDefReply(result: Header, data: Option<Json>)
    | RevocRegEntryReply(result: Header, revocRegDefId: string, data: Option<Json>)
    | RevocRegDeltaReply(result: Header, revocRegDefId: string, delta: DeltaData)
    | AgreementReply(result: Header, version: Option<Json>, data: Option<Json>)
    | AuthRuleReply(result: Header, rules: seq<Json>, authType: Option<Json>, authAction: Option<Json>,
                    field: Option<Json>, oldValue: Option<Json>, newValue: Option<Json>)
  {
    /** `op`: every reply but `{}` is a REPLY */
    function Op(): Option<string> {
      if EmptyReply? then None else Some("REPLY")
    }
  }

  /** A reply to a request of kind `k`: it carries the code of its kind (which
      `KindOfCode` maps back to it) and echoes the caller's `identifier` and `reqId` */
  ghost predicate Answers(r: Reply, k: TxKind, identifier: string, reqId: string) {
    && r.Op() == Some("REPLY")
    && r.result.typ == TypeCode(k)
    && r.result.identifier == identifier
    && r.result.reqId == reqId
  }

  // ---- buildResponse ----

  ghost predicate Nullish(v: Option<Json>) {
    v.None? || v == Some(JNull)
  }

  /** `buildResponse`: records `reqId` into `txn.metadata`, then answers with
      `txnMetadata.seqNo` and `txn.data.ver || 1` */
  function BuildResponse(typ: string, identifier: string, reqId: string, txn: Option<Json>, txnMetadata: Option<Json>,
                         reqSignature: Option<Json>, rootHash: Option<Json>, auditPath: Option<Json>)
    : (r: Result<Reply, Error>)
    ensures r.Err? <==>
              || Nullish(txn) || Nullish(Get(txn.value, "metadata"))
              || Nullish(txnMetadata) || Nullish(Get(txn.value, "data"))
    ensures r.Err? ==> r.error == TypeError
    ensures r.Ok? ==> && r.value.TxnReply? && r.value.Op() == Some("REPLY") && r.value.result.typ == typ
                      && r.value.result.identifier == identifier && r.value.result.reqId == reqId
  {
    var metadata :- Read(txn, "metadata");
    var metadata' :- Assign(metadata, "reqId", Some(JStr(reqId)));
    // `txn.metadata` is the same object as `metadata`, so the write shows through `txn`
    var txn' := if metadata'.JObj? then JObj(Update(txn.value.fields, "metadata", metadata')) else txn.value;
    var seqNo :- Read(txnMetadata, "seqNo");
    var ver :- Read(Get(txn', "data"), "ver");
    Ok(TxnReply(Header(typ, identifier, reqId, seqNo, None), if Truthy(ver) then ver.value else Num(1),
                txn', txnMetadata.value, reqSignature, rootHash, auditPath))
  }

  /** A built response copies `seqNo` from `txnMetadata`, defaults `ver` to 1,
      records `reqId` in an object-valued `txn.metadata` and changes nothing
      else in `txn` */
  lemma BuildResponseSpec(typ: string, identifier: string, reqId: string, txn: Option<Json>, txnMetadata: Option<Json>,
                          reqSignature: Option<Json>, rootHash: Option<Json>, auditPath: Option<Json>)
    requires BuildResponse(typ, identifier, reqId, txn, txnMetadata, reqSignature, rootHash, auditPath).Ok?
    ensures var r := BuildResponse(typ, identifier, reqId, txn, txnMetadata, reqSignature, rootHash, auditPath).value;
            var ver := Get(Get(txn.value, "data").value, "ver");
            && r.result.seqNo == Get(txnMetadata.value, "seqNo")
            && r.txnMetadata == txnMetadata.value
            && r.ver == (if Truthy(ver) then ver.value else Num(1))
            && (Get(txn.value, "metadata").value.JObj? ==>
                  && Get(Get(r.txn, "metadata").value, "reqId") == Some(JStr(reqId))
                  && (forall k {:trigger Get(Get(r.txn, "metadata").value, k)} :: k != "reqId" ==>
                        Get(Get(r.txn, "metadata").value, k) == Get(Get(txn.value, "metadata").value, k)))
            && (forall k {:trigger Get(r.txn, k)} :: k != "metadata" ==> Get(r.txn, k) == Get(txn.value, k))
            && r.reqSignature == reqSignature && r.rootHash == rootHash && r.auditPath == auditPath
  {
    var metadata := Get(txn.value, "metadata");
    var metadata' := Assign(metadata, "reqId", Some(JStr(reqId))).value;
    var txn' := if metadata'.JObj? then JObj(Update(txn.value.fields, "metadata", metadata')) else txn.value;
    assert Get(txn', "data") == Get(txn.value, "data");
  }

  // ---- Object.keys(v)[0] ----

  predicate IsDigit(c: char) {
    '0' <= c <= '9'
  }

  /** The number a string of decimal digits denotes */
  function DigitsValue(s: string): nat
    requires forall i :: 0 <= i < |s| ==> IsDigit(s[i])
  {
    if s == [] then 0
    else
      assert IsDigit(s[|s| - 1]);
      DigitsValue(s[..|s| - 1]) * 10 + (s[|s| - 1] as int - '0' as int)
  }

  /** A key JavaScript treats as an array index: a canonical decimal below 2^32 - 1 */
  predicate IsArrayIndex(k: string) {
    && k != []
    && (forall i :: 0 <= i < |k| ==> IsDigit(k[i]))
    && (k[0] != '0' || |k| == 1)
    && DigitsValue(k) < 0xFFFF_FFFF
  }

  /** The array-index key of smallest value, if any */
  function MinIndexKey(ks: seq<string>): (r: Option<string>)
    ensures r.None? <==> forall i :: 0 <= i < |ks| ==> !IsArrayIndex(ks[i])
    ensures r.Some? ==> r.value in ks && IsArrayIndex(r.value)
    ensures r.Some? ==> forall i :: 0 <= i < |ks| && IsArrayIndex(ks[i]) ==> DigitsValue(r.value) <= DigitsValue(ks[i])
  {
    if ks == [] then None
    else
      var rest := MinIndexKey(ks[1..]);
      assert forall i :: 1 <= i < |ks| ==> ks[i] == ks[1..][i - 1];
      if IsArrayIndex(ks[0]) && (rest.None? || DigitsValue(ks[0]) <= DigitsValue(rest.value)) then Some(ks[0])
      else rest
  }

  /** `Object.keys(v)[0]`: integer-like keys come first in ascending order, then
      the others in insertion order; strings and arrays list their indices,
      other primitives have no keys; undefined and null throw */
  function FirstKey(v: Option<Json>): (r: Result<Option<string>, Error>)
    ensures r.Err? <==> Nullish(v)
  {
    match v
    case None => Err(TypeError)
    case Some(JNull) => Err(TypeError)
    case Some(JObj(fs)) =>
      var ks := Keys(fs);
      var idx := MinIndexKey(ks);
      Ok(if idx.Some? then idx else if ks == [] then None else Some(ks[0]))
    case Some(JStr(s)) => Ok(if s == "" then None else Some("0"))
    case Some(JArr(a)) => Ok(if a == [] then None else Some("0"))
    case Some(_) => Ok(None)
  }

  /** The key taken from an object is one of its keys: the smallest array index
      when there is one, else the first key inserted */
  lemma FirstKeyOfObject(fs: seq<Field>)
    ensures var r := FirstKey(Some(JObj(fs)));
            && r.Ok?
            && (r.value.Some? <==> fs != [])
            && (r.value.Some? ==> r.value.value in Keys(fs))
            && ((forall i :: 0 <= i < |fs| ==> !IsArrayIndex(Keys(fs)[i])) && fs != [] ==> r.value == Some(fs[0].key))
            && (r.value.Some? && IsArrayIndex(r.value.value) ==>
                  forall i :: 0 <= i < |fs| && IsArrayIndex(Keys(fs)[i]) ==> DigitsValue(r.value.value) <= DigitsValue(Keys(fs)[i]))
  {
    var ks := Keys(fs);
    if fs != [] {
      KeysHead(fs);
    }
    if MinIndexKey(ks).None? && fs != [] {
      assert !IsArrayIndex(ks[0]);
    }
  }

  lemma KeysHead(fs: seq<Field>)
    requires fs != []
    ensures Keys(fs)[0] == fs[0].key
  {
  }

  /** An ATTRIB payload `{"endpoint": ...}` is reported as "endpoint"; an
      integer-like key is reported before any other */
  lemma FirstKeyExamples(e: Json)
    ensures FirstKey(Some(JObj([Field("endpoint", e)]))) == Ok(Some("endpoint"))
    ensures FirstKey(Some(JObj([Field("b", e), Field("7", e)]))) == Ok(Some("7"))
  {
    assert !IsArrayIndex("endpoint") by {
      assert !IsDigit('e');
    }
    assert Keys([Field("endpoint", e)]) == ["endpoint"];
    var ks := ["b", "7"];
    assert Keys([Field("b", e), Field("7", e)]) == ks;
    assert !IsArrayIndex("b") by {
      assert !IsDigit('b');
    }
    assert DigitsValue("7") == 7 by {
      assert "7"[..0] == [];
    }
    assert IsArrayIndex("7");
    assert ks[1..] == ["7"];
    assert MinIndexKey(["7"][1..]) == None;
  }

  // ---- The per-kind replies ----

  /** A transaction as the storage returns it: `imeta.seqNo`, the outcome of
      JSON.parse on `idata.serialized.idata.json` (`None` when that text is not
      JSON), and `idata.expansion.idata` */
  datatype StoredTx = StoredTx(seqNo: Option<Json>, original: Option<Json>, expansion: Option<Json>)

  /** `JSON.parse(tx.idata.serialized.idata.json)` */
  function OriginalOf(tx: StoredTx): (r: Result<Json, Error>)
    ensures r.Err? <==> tx.original.None?
  {
    if tx.original.None? then Err(SyntaxError) else Ok(tx.original.value)
  }

  /** `JSON.parse(v)` given JSON.parse's outcome on a defined value (`None` when
      it throws); JSON.parse of undefined always throws */
  function JsonParse(parse: Json -> Option<Json>, v: Option<Json>): (r: Result<Json, Error>)
    ensures r.Err? ==> r.error == SyntaxError
  {
    if v.None? || parse(v.value).None? then Err(SyntaxError) else Ok(parse(v.value).value)
  }

  /** `originalTx.txnMetadata.txnTime` */
  function TxnTimeOf(original: Json): Result<Option<Json>, Error> {
    ReadPath(Some(original), ["txnMetadata", "txnTime"])
  }

  /** The three writes into the stored NYM `data`: `identifier`, `txnTime`
      (undefined deletes nothing but reads back as undefined) and `seqNo`;
      writes into a primitive are lost */
  function StampNymData(data: Json, identifier: string, txnTime: Option<Json>, seqNo: Option<Json>): (d: Json)
    requires data != JNull
    ensures data.JObj? ==>
              && d.JObj?
              && Get(d, "identifier") == Some(JStr(identifier))
              && Get(d, "txnTime") == txnTime
              && Get(d, "seqNo") == seqNo
              && forall k {:trigger Get(d, k)} :: k != "identifier" && k != "txnTime" && k != "seqNo" ==>
                   Get(d, k) == Get(data, k)
    ensures !data.JObj? ==> d == data
  {
    var d1 := Assign(Some(data), "identifier", Some(JStr(identifier))).value;
    var d2 := Assign(Some(d1), "txnTime", txnTime).value;
    Assign(Some(d2), "seqNo", seqNo).value
  }

  /** One element of the GET_NYM reply: `identifier`, `txnTime` and `seqNo` are
      written into the stored `txn.data`, which is then sent along with its `dest` */
  function NymReplyOf(identifier: string, reqId: string, tx: StoredTx): (r: Result<Reply, Error>)
    ensures r.Ok? ==> Answers(r.value, Nym, identifier, reqId) && r.value.NymReply? && r.value.data.Some?
  {
    var original :- OriginalOf(tx);
    var data :- ReadPath(Some(original), ["txn", "data"]);
    if data.None? || data == Some(JNull) then Err(TypeError)  // `data.identifier = ...` on undefined or null
    else
      var txnTime :- TxnTimeOf(original);
      var data' := StampNymData(data.value, identifier, txnTime, tx.seqNo);
      Ok(NymReply(Header(TypeCode(Nym), identifier, reqId, tx.seqNo, txnTime), Some(data'), Get(data', "dest")))
  }

  /** A GET_NYM reply element fails exactly when the stored text is not JSON or
      `txn.data` or `txnMetadata` cannot be read; an object-valued `data`
      carries the caller's `identifier`, the stored `txnTime` and the `seqNo`,
      and is otherwise the stored data; `dest` is the stored one */
  lemma NymReplySpec(identifier: string, reqId: string, tx: StoredTx)
    ensures var r := NymReplyOf(identifier, reqId, tx);
            r.Ok? <==> && tx.original.Some?
                       && ReadPath(tx.original, ["txn", "data"]).Ok?
                       && !Nullish(AtPath(tx.original, ["txn", "data"]))
                       && ReadPath(tx.original, ["txnMetadata", "txnTime"]).Ok?
    ensures var r := NymReplyOf(identifier, reqId, tx);
            r.Ok? ==>
            var data := AtPath(tx.original, ["txn", "data"]).value;
            && r.value.result.seqNo == tx.seqNo
            && r.value.result.txnTime == AtPath(tx.original, ["txnMetadata", "txnTime"])
            && r.value.dest == Get(data, "dest")
            && (data.JObj? ==>
                  && Get(r.value.data.value, "identifier") == Some(JStr(identifier))
                  && Get(r.value.data.value, "txnTime") == r.value.result.txnTime
                  && Get(r.value.data.value, "seqNo") == tx.seqNo)
            && (!data.JObj? ==> r.value.data == Some(data))
  {
  }

  /** One element of the GET_ATTRIB reply: the stored `raw` text, `dest`, and
      the first key of the parsed `raw` */
  function AttribReplyOf(parse: Json -> Option<Json>, identifier: string, reqId: string, tx: StoredTx)
    : (r: Result<Reply, Error>)
    ensures r.Ok? ==> Answers(r.value, Attrib, identifier, reqId) && r.value.AttribReply?
  {
    var original :- OriginalOf(tx);
    var txnTime :- TxnTimeOf(original);
    var raw :- ReadPath(Some(original), ["txn", "data", "raw"]);
    var dest := AtPath(Some(original), ["txn", "data", "dest"]);
    var parsedRaw :- JsonParse(parse, raw);
    var key :- FirstKey(Some(parsedRaw));
    Ok(AttribReply(Header(TypeCode(Attrib), identifier, reqId, tx.seqNo, txnTime), raw, dest, key))
  }

  /** A GET_ATTRIB reply element fails on a `raw` that is missing or not JSON
      (SyntaxError) and on one that parses to null (TypeError); otherwise its
      `raw` member is the first key of the parsed payload */
  lemma AttribReplySpec(parse: Json -> Option<Json>, identifier: string, reqId: string, tx: StoredTx)
    requires tx.original.Some?
    requires ReadPath(tx.original, ["txnMetadata", "txnTime"]).Ok?
    requires ReadPath(tx.original, ["txn", "data", "raw"]).Ok?
    ensures var raw := AtPath(tx.original, ["txn", "data", "raw"]);
            var r := AttribReplyOf(parse, identifier, reqId, tx);
            && (raw.None? || parse(raw.value).None? ==> r == Err(SyntaxError))
            && (raw.Some? && parse(raw.value) == Some(JNull) ==> r == Err(TypeError))
            && (raw.Some? && parse(raw.value).Some? && parse(raw.value) != Some(JNull) ==>
                  && r.Ok?
                  && r.value.data == raw
                  && r.value.dest == AtPath(tx.original, ["txn", "data", "dest"])
                  && FirstKey(parse(raw.value)) == Ok(r.value.raw))
  {
  }

  /** The GET_SCHEMA reply: the expanded schema `data` and the stored `txnTime` */
  function SchemaReplyOf(from: string, identifier: string, reqId: string, tx: Option<StoredTx>)
    : (r: Result<Reply, Error>)
    ensures r.Ok? ==> Answers(r.value, Schema, identifier, reqId) && r.value.SchemaReply? && r.value.dest == Some(JStr(from))
    ensures r.Ok? ==> tx.Some? && r.value.data == AtPath(tx.value.expansion, ["txn", "data", "data"])
                      && r.value.result.seqNo == tx.value.seqNo
    ensures tx.None? ==> r == Err(TypeError)
  {
    if tx.None? then Err(TypeError)  // nothing stored: `tx.idata` of undefined
    else
      var original :- OriginalOf(tx.value);
      var data :- ReadPath(tx.value.expansion, ["txn", "data", "data"]);
      var txnTime :- TxnTimeOf(original);
      Ok(SchemaReply(Header(TypeCode(Schema), identifier, reqId, tx.value.seqNo, txnTime), data, Some(JStr(from))))
  }

  /** The GET_CLAIM_DEF reply: `{}` unless the requested tag is the stored one */
  function ClaimDefReplyOf(from: string, ref: string, signatureType: string, tag: string,
                           identifier: string, reqId: string, tx: Option<StoredTx>): (r: Result<Reply, Error>)
    ensures r.Ok? && !r.value.EmptyReply? ==> Answers(r.value, ClaimDef, identifier, reqId) && r.value.ClaimDefReply?
  {
    if tx.None? then Err(TypeError)
    else
      var original :- OriginalOf(tx.value);
      var storedTag :- ReadPath(Some(original), ["txn", "data", "tag"]);
      if storedTag != Some(JStr(tag)) then Ok(EmptyReply)  // `tag !== originalTx.txn.data.tag`
      else
        var txnTime :- TxnTimeOf(original);
        var data := AtPath(Some(original), ["txn", "data", "data"]);
        Ok(ClaimDefReply(Header(TypeCode(ClaimDef), identifier, reqId, tx.value.seqNo, txnTime),
                         data, signatureType, from, ref, tag))
  }

  /** The tag gate: a stored tag other than the requested one gives `{}` (and
      `txnMetadata` is then never read); the same tag gives a full REPLY that
      echoes the request */
  lemma ClaimDefGate(from: string, ref: string, signatureType: string, tag: string,
                     identifier: string, reqId: string, tx: StoredTx)
    requires tx.original.Some?
    requires ReadPath(tx.original, ["txn", "data", "tag"]).Ok?
    ensures var stored := AtPath(tx.original, ["txn", "data", "tag"]);
            var r := ClaimDefReplyOf(from, ref, signatureType, tag, identifier, reqId, Some(tx));
            && (stored != Some(JStr(tag)) ==> r == Ok(EmptyReply))
            && (stored == Some(JStr(tag)) ==>
                  (r.Ok? <==> ReadPath(tx.original, ["txnMetadata", "txnTime"]).Ok?))
            && (stored == Some(JStr(tag)) && r.Ok? ==>
                  && r.value.ClaimDefReply?
                  && r.value.tag == tag && r.value.origin == from && r.value.ref == ref
                  && r.value.signatureType == signatureType
                  && r.value.data == AtPath(tx.original, ["txn", "data", "data"]))
  {
  }

  /** The GET_REVOC_REG_DEF reply: the stored `txn.data` */
  function RevocRegDefReplyOf(identifier: string, reqId: string, tx: Option<StoredTx>): (r: Result<Reply, Error>)
    ensures r.Ok? ==> Answers(r.value, RevocRegDef, identifier, reqId) && r.value.RevocRegDefReply?
    ensures r.Ok? ==> tx.Some? && r.value.data == AtPath(tx.value.original, ["txn", "data"])
  {
    if tx.None? then Err(TypeError)
    else
      var original :- OriginalOf(tx.value);
      var txnTime :- TxnTimeOf(original);
      var data :- ReadPath(Some(original), ["txn", "data"]);
      Ok(RevocRegDefReply(Header(TypeCode(RevocRegDef), identifier, reqId, tx.value.seqNo, txnTime), data))
  }

  /** The GET_REVOC_REG reply: the stored `txn.data` with `id` set to the requested registry */
  function RevocRegEntryReplyOf(revocRegDefId: string, identifier: string, reqId: string, tx: Option<StoredTx>)
    : (r: Result<Reply, Error>)
    ensures r.Ok? ==> Answers(r.value, RevocRegEntry, identifier, reqId) && r.value.RevocRegEntryReply?
    ensures r.Ok? ==> r.value.revocRegDefId == revocRegDefId && r.value.data.Some?
  {
    if tx.None? then Err(TypeError)
    else
      var original :- OriginalOf(tx.value);
      var data :- ReadPath(Some(original), ["txn", "data"]);
      var data' :- Assign(data, "id", Some(JStr(revocRegDefId)));
      var txnTime :- TxnTimeOf(original);
      Ok(RevocRegEntryReply(Header(TypeCode(RevocRegEntry), identifier, reqId, tx.value.seqNo, txnTime),
                            revocRegDefId, Some(data')))
  }

  /** An object-valued entry gets `id` and keeps every other member */
  lemma RevocRegEntrySetsId(revocRegDefId: string, identifier: string, reqId: string, tx: StoredTx)
    requires RevocRegEntryReplyOf(revocRegDefId, identifier, reqId, Some(tx)).Ok?
    requires AtPath(tx.original, ["txn", "data"]).value.JObj?
    ensures var r := RevocRegEntryReplyOf(revocRegDefId, identifier, reqId, Some(tx)).value;
            var data := AtPath(tx.original, ["txn", "data"]).value;
            && Get(r.data.value, "id") == Some(JStr(revocRegDefId))
            && forall k {:trigger Get(r.data.value, k)} :: k != "id" ==> Get(r.data.value, k) == Get(data, k)
  {
  }

  /** The GET_TRANSACTION_AUTHOR_AGREEMENT(_AML) reply: the first stored
      transaction's `data` and `version`; no stored transaction is an error */
  function AgreementReplyOf(aml: bool, identifier: string, reqId: string, txs: seq<StoredTx>)
    : (r: Result<Reply, Error>)
    ensures txs == [] ==> r == Err(TypeError)
    ensures r.Ok? ==> Answers(r.value, if aml then TaaAml else Taa, identifier, reqId) && r.value.AgreementReply?
    ensures r.Ok? ==> && r.value.result.seqNo == txs[0].seqNo
                      && r.value.data == AtPath(txs[0].original, ["txn", "data"])
                      && r.value.version == AtPath(txs[0].original, ["txn", "data", "version"])
  {
    if txs == [] then Err(TypeError)  // `txs[0].idata` of undefined
    else
      var original :- OriginalOf(txs[0]);
      var data :- ReadPath(Some(original), ["txn", "data"]);
      var version :- Read(data, "version");
      var txnTime :- TxnTimeOf(original);
      Ok(AgreementReply(Header(TypeCode(if aml then TaaAml else Taa), identifier, reqId, txs[0].seqNo, txnTime),
                        version, data))
  }

  /** `txs.map(tx => tx.idata.expansion.idata.txn.data)`; an undefined element
      is sent as null */
  function RuleData(txs: seq<StoredTx>): (r: Result<seq<Json>, Error>)
    ensures r.Ok? <==> forall i :: 0 <= i < |txs| ==> ReadPath(txs[i].expansion, ["txn", "data"]).Ok?
    ensures r.Ok? ==> |r.value| == |txs|
    ensures r.Ok? ==> forall i :: 0 <= i < |txs| ==>
                        r.value[i] == AtPath(txs[i].expansion, ["txn", "data"]).GetOr(JNull)
  {
    if txs == [] then Ok([])
    else
      var first :- ReadPath(txs[0].expansion, ["txn", "data"]);
      var rest :- RuleData(txs[1..]);
      assert forall i :: 1 <= i < |txs| ==> txs[i] == txs[1..][i - 1];
      Ok([first.GetOr(JNull)] + rest)
  }

  /** The GET_AUTH_RULE reply: every matching rule, with the query echoed back */
  function AuthRuleReplyOf(q: QueryFilters.AuthRuleQuery, identifier: string, reqId: string, txs: seq<StoredTx>)
    : (r: Result<Reply, Error>)
    ensures r.Ok? ==> Answers(r.value, AuthRule, identifier, reqId) && r.value.AuthRuleReply?
    ensures r.Ok? ==> r.value.result.seqNo.None? && r.value.result.txnTime.None?
    ensures r.Ok? ==> && r.value.authAction == q.authAction && r.value.authType == q.authType
                      && r.value.field == q.field && r.value.oldValue == q.oldValue && r.value.newValue == q.newValue
  {
    var rules :- RuleData(txs);
    Ok(AuthRuleReply(Header(TypeCode(AuthRule), identifier, reqId, None, None),
                     rules, q.authType, q.authAction, q.field, q.oldValue, q.newValue))
  }

  // ---- GET_REVOC_REG_DELTA ----

  /** The JavaScript value of `entry_from`: the falsy `from` parameter itself, or
      what the lookup returned (`undefined` when nothing matched) */
  datatype EntryFrom = Absent(falsy: Option<Json>) | Present(tx: StoredTx)

  /** `entry.idata.expansion.idata.txn.data.value` */
  function EntryValue(tx: StoredTx): Result<Option<Json>, Error> {
    ReadPath(tx.expansion, ["txn", "data", "value"])
  }

  /** The accumulator block a stored entry contributes: the registry type and id
      and the `accum` of its expanded `value`, its `seqNo`, and the `txnTime` of
      its parsed original text */
  ghost predicate AccumFromEntry(a: Accum, tx: StoredTx, original: Option<Json>) {
    && a.revocDefType == AtPath(tx.expansion, ["txn", "data", "revocDefType"])
    && a.revocRegDefId == AtPath(tx.expansion, ["txn", "data", "revocRegDefId"])
    && a.txnTime == AtPath(original, ["txnMetadata", "txnTime"])
    && a.seqNo == tx.seqNo
    && a.accum == Get(AtPath(tx.expansion, ["txn", "data", "value"]).GetOr(JNull), "accum")
  }

  /** The accumulator block of one entry, once its `value` has been read */
  function AccumOfEntry(tx: StoredTx, original: Json, value: Json): (r: Result<Accum, Error>)
    ensures r.Ok? <==> ReadPath(Some(original), ["txnMetadata", "txnTime"]).Ok?
    ensures r.Ok? ==> && r.value.revocDefType == AtPath(tx.expansion, ["txn", "data", "revocDefType"])
                      && r.value.revocRegDefId == AtPath(tx.expansion, ["txn", "data", "revocRegDefId"])
                      && r.value.txnTime == AtPath(Some(original), ["txnMetadata", "txnTime"])
                      && r.value.seqNo == tx.seqNo
                      && r.value.accum == Get(value, "accum")
  {
    var txnTime :- TxnTimeOf(original);
    Ok(Accum(AtPath(tx.expansion, ["txn", "data", "revocDefType"]), AtPath(tx.expansion, ["txn", "data", "revocRegDefId"]),
             txnTime, tx.seqNo, Get(value, "accum")))
  }

  /** The GET_REVOC_REG_DELTA reply */
  function RevocRegDeltaReplyOf(revocRegDefId: string, identifier: string, reqId: string,
                                entryTo: Option<StoredTx>, entryFrom: EntryFrom): (r: Result<Reply, Error>)
    ensures r.Ok? ==> Answers(r.value, RevocRegDelta, identifier, reqId) && r.value.RevocRegDeltaReply?
    ensures r.Ok? ==> r.value.revocRegDefId == revocRegDefId
  {
    if entryTo.None? then Err(TypeError)
    else
      var data :- DeltaDataOf(entryTo.value, entryFrom);
      Ok(RevocRegDeltaReply(
        Header(TypeCode(RevocRegDelta), identifier, reqId, entryTo.value.seqNo, data.value.accumTo.txnTime),
        revocRegDefId, data))
  }

  /** The `data` member of the delta reply, built from the `to` entry and the `from` entry */
  function DeltaDataOf(toTx: StoredTx, entryFrom: EntryFrom): (r: Result<DeltaData, Error>)
    ensures EntryValue(toTx).Ok? && Nullish(EntryValue(toTx).value) ==> r.Err?
    ensures r.Ok? ==> && r.value.value.accumTo.seqNo == toTx.seqNo
                      && r.value.revocRegDefId == AtPath(toTx.expansion, ["txn", "data", "revocRegDefId"])
                      && (entryFrom.Absent? ==> r.value.value.accumFrom == AccumFalsy(entryFrom.falsy)
                                                && r.value.stateProofFrom == entryFrom.falsy)
                      && (entryFrom.Present? ==> r.value.stateProofFrom == Some(JObj([])))
    ensures r.Ok? ==> AccumFromEntry(r.value.value.accumTo, toTx, toTx.original)
    ensures r.Ok? && entryFrom.Present? ==>
              if Truthy(entryFrom.tx.original) then
                r.value.value.accumFrom.AccumOf?
                && AccumFromEntry(r.value.value.accumFrom.accum, entryFrom.tx, entryFrom.tx.original)
              else r.value.value.accumFrom == AccumFalsy(entryFrom.tx.original)
  {
    var toValue :- EntryValue(toTx);
    var delta :- SnapshotsDelta(toValue, entryFrom);
    var accums :- AccumsOf(toTx, toValue.value, entryFrom);
    var stateProofFrom := if entryFrom.Absent? then entryFrom.falsy else Some(JObj([]));
    Ok(DeltaData(accums.0.revocDefType, accums.0.revocRegDefId, DeltaValue(accums.0, delta.1, delta.0, accums.1),
                 stateProofFrom))
  }

  /** `accum_to` and `accum_from`, after both stored texts are parsed (`to` first) */
  function AccumsOf(toTx: StoredTx, toValue: Json, entryFrom: EntryFrom): (r: Result<(Accum, AccumFrom), Error>)
    ensures r.Ok? ==> r.value.0.seqNo == toTx.seqNo
    ensures r.Ok? ==> r.value.0.revocRegDefId == AtPath(toTx.expansion, ["txn", "data", "revocRegDefId"])
    ensures r.Ok? && entryFrom.Absent? ==> r.value.1 == AccumFalsy(entryFrom.falsy)
    ensures r.Ok? ==> && r.value.0.revocDefType == AtPath(toTx.expansion, ["txn", "data", "revocDefType"])
                      && r.value.0.txnTime == AtPath(toTx.original, ["txnMetadata", "txnTime"])
                      && r.value.0.accum == Get(toValue, "accum")
    ensures r.Ok? && entryFrom.Present? && !Truthy(entryFrom.tx.original) ==>
              r.value.1 == AccumFalsy(entryFrom.tx.original)
    ensures r.Ok? && entryFrom.Present? && Truthy(entryFrom.tx.original) ==>
              r.value.1.AccumOf? && AccumFromEntry(r.value.1.accum, entryFrom.tx, entryFrom.tx.original)
  {
    var toOriginal :- OriginalOf(toTx);
    var fromOriginal :- FromOriginal(entryFrom);
    var accumTo :- AccumOfEntry(toTx, toOriginal, toValue);
    var accumFrom :- AccumFromOf(entryFrom, fromOriginal);
    Ok((accumTo, accumFrom))
  }

  /** `getDelta` on the snapshots of the `to` value and of the `from` entry: the
      `(issued, revoked)` pair. Without a `from` entry it is the `to` snapshot
      itself; with one, `issued` holds the indices issued at `to` but not at
      `from` and `revoked` those issued at `from` but no longer at `to` */
  function SnapshotsDelta(toValue: Option<Json>, entryFrom: EntryFrom): (r: Result<(Json, Json), Error>)
    ensures r.Ok? ==> !Nullish(toValue)
    ensures r.Ok? && entryFrom.Absent? ==>
              r.value == (RevocDelta.ListOr(Get(toValue.value, "issued")), RevocDelta.ListOr(Get(toValue.value, "revoked")))
    ensures r.Ok? && entryFrom.Present? ==>
              var toIssued := RevocDelta.ListOr(Get(toValue.value, "issued"));
              var fromValue := AtPath(entryFrom.tx.expansion, ["txn", "data", "value"]);
              && !Nullish(fromValue)
              && var fromIssued := RevocDelta.ListOr(Get(fromValue.value, "issued"));
              && r.value.0.JArr? && r.value.1.JArr? && toIssued.JArr? && fromIssued.JArr?
              && (forall x {:trigger x in r.value.0.items} :: x in r.value.0.items <==>
                    x in toIssued.items && !RevocDelta.Includes(fromIssued.items, x))
              && (forall x {:trigger x in r.value.1.items} :: x in r.value.1.items <==>
                    x in fromIssued.items && !RevocDelta.Includes(toIssued.items, x))
  {
    var toSnap :- RevocDelta.SnapshotOf(toValue);
    var fromSnap :- FromSnapshot(entryFrom);
    RevocDelta.GetDeltaJson(toSnap, fromSnap)
  }

  /** Without a `from` entry (a falsy `from`, or no entry at `from`), the delta
      is the `to` snapshot itself and the falsy value stands in for `accum_from`
      and `stateProofFrom` */
  lemma DeltaDataWithoutFrom(toTx: StoredTx, falsy: Option<Json>)
    requires DeltaDataOf(toTx, Absent(falsy)).Ok?
    ensures var d := DeltaDataOf(toTx, Absent(falsy)).value;
            var toValue := AtPath(toTx.expansion, ["txn", "data", "value"]).value;
            && d.revocRegDefId == AtPath(toTx.expansion, ["txn", "data", "revocRegDefId"])
            && AccumFromEntry(d.value.accumTo, toTx, toTx.original)
            && d.value.issued == RevocDelta.ListOr(Get(toValue, "issued"))
            && d.value.revoked == RevocDelta.ListOr(Get(toValue, "revoked"))
            && d.value.accumFrom == AccumFalsy(falsy)
            && d.stateProofFrom == falsy
  {
  }

  /** With a `from` entry, `stateProofFrom` is `{}`, `issued` holds what the `to`
      entry issued and the `from` entry had not, and `revoked` what the `from`
      entry issued and the `to` entry no longer has */
  lemma DeltaDataWithFrom(toTx: StoredTx, fromTx: StoredTx)
    ensures var r := DeltaDataOf(toTx, Present(fromTx));
            var toValue := AtPath(toTx.expansion, ["txn", "data", "value"]);
            var fromValue := AtPath(fromTx.expansion, ["txn", "data", "value"]);
            r.Ok? ==>
            && !Nullish(toValue) && !Nullish(fromValue)
            && var toIssued := RevocDelta.ListOr(Get(toValue.value, "issued"));
            && var fromIssued := RevocDelta.ListOr(Get(fromValue.value, "issued"));
            && r.value.stateProofFrom == Some(JObj([]))
            && AccumFromEntry(r.value.value.accumTo, toTx, toTx.original)
            && (Truthy(fromTx.original) ==>
                  r.value.value.accumFrom.AccumOf? && AccumFromEntry(r.value.value.accumFrom.accum, fromTx, fromTx.original))
            && (!Truthy(fromTx.original) ==> r.value.value.accumFrom == AccumFalsy(fromTx.original))
            && r.value.value.issued.JArr? && r.value.value.revoked.JArr? && toIssued.JArr? && fromIssued.JArr?
            && (forall x {:trigger x in r.value.value.issued.items} :: x in r.value.value.issued.items <==>
                  x in toIssued.items && !RevocDelta.Includes(fromIssued.items, x))
            && (forall x {:trigger x in r.value.value.revoked.items} :: x in r.value.value.revoked.items <==>
                  x in fromIssued.items && !RevocDelta.Includes(toIssued.items, x))
  {
  }

  /** The `from` snapshot, when there is a `from` entry */
  function FromSnapshot(entryFrom: EntryFrom): Result<Option<RevocDelta.JsonSnapshot>, Error> {
    match entryFrom
    case Absent(_) => Ok(None)
    case Present(tx) =>
      var value :- EntryValue(tx);
      var snap :- RevocDelta.SnapshotOf(value);
      Ok(Some(snap))
  }

  /** `entry_from && JSON.parse(...)`: `None` when there is no `from` entry */
  function FromOriginal(entryFrom: EntryFrom): Result<Option<Json>, Error> {
    match entryFrom
    case Absent(_) => Ok(None)
    case Present(tx) =>
      var original :- OriginalOf(tx);
      Ok(Some(original))
  }

  /** `accum_from: entry_from_originalTx && {...}` */
  function AccumFromOf(entryFrom: EntryFrom, fromOriginal: Option<Json>): (r: Result<AccumFrom, Error>)
    ensures entryFrom.Absent? ==> r == Ok(AccumFalsy(entryFrom.falsy))
    ensures entryFrom.Present? && !Truthy(fromOriginal) ==> r == Ok(AccumFalsy(fromOriginal))
    ensures entryFrom.Present? && Truthy(fromOriginal) ==>
              && (r.Ok? <==> ReadPath(fromOriginal, ["txnMetadata", "txnTime"]).Ok?)
              && (r.Ok? ==> r.value.AccumOf? && AccumFromEntry(r.value.accum, entryFrom.tx, fromOriginal))
  {
    match entryFrom
    case Absent(v) => Ok(AccumFalsy(v))
    case Present(tx) =>
      if fromOriginal.None? then Ok(AccumFalsy(None))
      else if !Truthy(fromOriginal) then Ok(AccumFalsy(fromOriginal))  // a stored text such as "0" or "null"
      else
        var value := AtPath(tx.expansion, ["txn", "data", "value"]);
        var accum :- AccumOfEntry(tx, fromOriginal.value, value.GetOr(JNull));
        Ok(AccumOf(accum))
  }
}

=== FILE: revoc_delta.dfy ===
/** `getDelta`: the change between two revocation-registry snapshots.

    A snapshot lists the `issued` and `revoked` credential indices of a
    registry at one time. The delta keeps the order of its inputs and keeps
    duplicates: it is two sequence filters, not a set difference. */
module RevocDelta {
  import opened Wrappers
  import opened Js

  /** `xs.filter(x => !ys.includes(x))`, for elements compared by value */
  function Without<T(==,!new)>(xs: seq<T>, ys: seq<T>): (r: seq<T>)
    ensures |r| <= |xs|
    ensures forall x {:trigger x in r} :: x in r <==> x in xs && x !in ys
  {
    if xs == [] then []
    else
      var rest := Without(xs[1..], ys);
      assert forall x :: x in xs <==> x == xs[0] || x in xs[1..];
      if xs[0] in ys then rest else [xs[0]] + rest
  }

  /** a is a subsequence of b: b with some elements dropped and the rest in order */
  predicate IsSubsequence<T(==,!new)>(a: seq<T>, b: seq<T>)
    decreases |b|
  {
    if a == [] then true
    else if b == [] then false
    else if a[0] == b[0] then IsSubsequence(a[1..], b[1..])
    else IsSubsequence(a, b[1..])
  }

  /** The filter keeps the order of xs */
  lemma {:induction false} WithoutIsSubsequence<T(!new)>(xs: seq<T>, ys: seq<T>)
    ensures IsSubsequence(Without(xs, ys), xs)
  {
    if xs != [] {
      WithoutIsSubsequence(xs[1..], ys);
      if xs[0] !in ys {
        assert ([xs[0]] + Without(xs[1..], ys))[1..] == Without(xs[1..], ys);
      } else {
        SubsequenceOfTail(Without(xs[1..], ys), xs);
      }
    }
  }

  /** A subsequence of the tail of b is a subsequence of b */
  lemma {:induction false} SubsequenceOfTail<T(!new)>(a: seq<T>, b: seq<T>)
    requires b != []
    requires IsSubsequence(a, b[1..])
    ensures IsSubsequence(a, b)
    decreases |b|, |a|
  {
    if a != [] && a[0] == b[0] {
      // b[0] matched a[0]; a[1..] must still fit into b[1..]
      SubsequenceDropFirst(a, b[1..]);
    }
  }

  /** Dropping the first element of a subsequence leaves a subsequence */
  lemma {:induction false} SubsequenceDropFirst<T(!new)>(a: seq<T>, b: seq<T>)
    requires a != []
    requires IsSubsequence(a, b)
    ensures IsSubsequence(a[1..], b)
    decreases |b|, |a|
  {
    if a[0] == b[0] {
      if a[1..] != [] {
        SubsequenceOfTail(a[1..], b);
      }
    } else {
      SubsequenceDropFirst(a, b[1..]);
      if a[1..] != [] {
        SubsequenceOfTail(a[1..], b);
      }
    }
  }

  /** Each element is kept with all its repetitions, or dropped altogether */
  lemma {:induction false} WithoutCounts<T(!new)>(xs: seq<T>, ys: seq<T>, x: T)
    ensures multiset(Without(xs, ys))[x] == if x in ys then 0 else multiset(xs)[x]
  {
    if xs != [] {
      WithoutCounts(xs[1..], ys, x);
      assert xs == [xs[0]] + xs[1..];
      assert multiset(xs) == multiset([xs[0]]) + multiset(xs[1..]);
      if xs[0] !in ys {
        assert multiset([xs[0]] + Without(xs[1..], ys))
            == multiset([xs[0]]) + multiset(Without(xs[1..], ys));
      }
    }
  }

  /** The values of a snapshot, with missing lists already defaulted to `[]` */
  datatype Snapshot<T> = Snapshot(issued: seq<T>, revoked: seq<T>)

  datatype Delta<T> = Delta(issued: seq<T>, revoked: seq<T>)

  /** `getDelta(to, from)`; `None` is a falsy `from` */
  function GetDelta<T(==,!new)>(to: Snapshot<T>, from: Option<Snapshot<T>>): (d: Delta<T>)
    ensures from.Some? ==> IsSubsequence(d.issued, to.issued) && IsSubsequence(d.revoked, from.value.issued)
  {
    if from.None? then Delta(to.issued, to.revoked)
    else
      WithoutIsSubsequence(to.issued, from.value.issued);
      WithoutIsSubsequence(from.value.issued, to.issued);
      Delta(Without(to.issued, from.value.issued), Without(from.value.issued, to.issued))
  }

  /** Without `from`, the delta is the whole of `to`: everything issued, everything revoked */
  lemma DeltaWithoutFrom<T(!new)>(to: Snapshot<T>)
    ensures GetDelta(to, None) == Delta(to.issued, to.revoked)
  {
  }

  /** With `from`: newly issued are the indices issued at `to` but not at `from`;
      revoked are those issued at `from` and no longer at `to` */
  lemma DeltaMembers<T(!new)>(to: Snapshot<T>, from: Snapshot<T>, x: T)
    ensures var d := GetDelta(to, Some(from));
            && (x in d.issued <==> x in to.issued && x !in from.issued)
            && (x in d.revoked <==> x in from.issued && x !in to.issued)
  {
  }

  /** With `from`, nothing is both newly issued and revoked; nothing newly issued
      was already issued at `from`; nothing revoked is still issued at `to` */
  lemma DeltaDisjoint<T(!new)>(to: Snapshot<T>, from: Snapshot<T>, x: T)
    ensures var d := GetDelta(to, Some(from));
            && !(x in d.issued && x in d.revoked)
            && !(x in d.issued && x in from.issued)
            && !(x in d.revoked && x in to.issued)
  {
    DeltaMembers(to, from, x);
  }

  /** With `from`, every occurrence of a kept element survives */
  lemma DeltaCounts<T(!new)>(to: Snapshot<T>, from: Snapshot<T>, x: T)
    ensures var d := GetDelta(to, Some(from));
            && multiset(d.issued)[x] == (if x in from.issued then 0 else multiset(to.issued)[x])
            && multiset(d.revoked)[x] == (if x in to.issued then 0 else multiset(from.issued)[x])
  {
    WithoutCounts(to.issued, from.issued, x);
    WithoutCounts(from.issued, to.issued, x);
  }

  ghost function Elems<T>(s: seq<T>): set<T> {
    set x | x in s
  }

  /** Applying the delta to the `from` issued set gives the `to` issued set */
  lemma ApplyDelta<T(!new)>(to: Snapshot<T>, from: Snapshot<T>)
    ensures var d := GetDelta(to, Some(from));
            Elems(to.issued) == (Elems(from.issued) - Elems(d.revoked)) + Elems(d.issued)
  {
    var d := GetDelta(to, Some(from));
    forall x | x in Elems(to.issued) || x in (Elems(from.issued) - Elems(d.revoked)) + Elems(d.issued)
      ensures x in Elems(to.issued) <==> x in (Elems(from.issued) - Elems(d.revoked)) + Elems(d.issued)
    {
      DeltaMembers(to, from, x);
    }
  }

  /** Comparing a snapshot with itself gives an empty delta */
  lemma IdenticalSnapshots<T(!new)>(s: Snapshot<T>)
    ensures GetDelta(s, Some(s)) == Delta([], [])
  {
    var d := GetDelta(s, Some(s));
    if d.issued != [] {
      DeltaMembers(s, s, d.issued[0]);
    }
  }

  /** When every index issued at `from` is still issued at `to`, nothing is revoked */
  lemma MonotoneNothingRevoked<T(!new)>(to: Snapshot<T>, from: Snapshot<T>)
    requires forall x :: x in from.issued ==> x in to.issued
    ensures GetDelta(to, Some(from)).revoked == []
  {
    var d := GetDelta(to, Some(from));
    if d.revoked != [] {
      DeltaMembers(to, from, d.revoked[0]);
    }
  }

  /** Issued [1, 2] then [1, 3]: 3 is newly issued, 2 is revoked */
  lemma DeltaExample()
    ensures GetDelta(Snapshot([1, 3], []), Some(Snapshot([1, 2], [5]))) == Delta([3], [2])
  {
    assert [1, 3][1..] == [3];
    assert [1, 2][1..] == [2];
  }

  // ---- The values as they come out of the stored transactions ----

  /** `v || []`: a falsy list (missing, null, 0, "" or false) becomes the empty array */
  function ListOr(v: Option<Json>): (r: Json)
    ensures Truthy(v) ==> r == v.value
    ensures !Truthy(v) ==> r == JArr([])
  {
    if Truthy(v) then v.value else JArr([])
  }

  /** Numbers, strings, booleans and null; `includes` compares these by value */
  predicate IsPrimitive(j: Json) {
    !j.JArr? && !j.JObj?
  }

  /** `ys.includes(x)` (SameValueZero) on values parsed from JSON: arrays and
      objects parsed separately are distinct references, so they never match */
  predicate Includes(ys: seq<Json>, x: Json) {
    IsPrimitive(x) && x in ys
  }

  /** `xs.filter(x => !ys.includes(x))` on values parsed from JSON */
  function WithoutJson(xs: seq<Json>, ys: seq<Json>): (r: seq<Json>)
    ensures forall x {:trigger x in r} :: x in r <==> x in xs && !Includes(ys, x)
  {
    if xs == [] then []
    else
      var rest := WithoutJson(xs[1..], ys);
      assert forall x :: x in xs <==> x == xs[0] || x in xs[1..];
      if Includes(ys, xs[0]) then rest else [xs[0]] + rest
  }

  ghost predicate AllPrimitive(xs: seq<Json>) {
    forall i :: 0 <= i < |xs| ==> IsPrimitive(xs[i])
  }

  /** On lists of indices (numbers), the JSON filter is the value filter */
  lemma {:induction false} WithoutJsonOnPrimitives(xs: seq<Json>, ys: seq<Json>)
    requires AllPrimitive(xs)
    ensures WithoutJson(xs, ys) == Without(xs, ys)
  {
    if xs != [] {
      assert AllPrimitive(xs[1..]) by {
        forall i | 0 <= i < |xs[1..]| ensures IsPrimitive(xs[1..][i]) {
          assert xs[1..][i] == xs[i + 1];
        }
      }
      WithoutJsonOnPrimitives(xs[1..], ys);
      assert IsPrimitive(xs[0]);
    }
  }

  /** A snapshot as `{revoked: value.revoked || [], issued: value.issued || []}` */
  datatype JsonSnapshot = JsonSnapshot(issued: Json, revoked: Json)

  /** The snapshot read from an entry's `txn.data.value`, which must be defined */
  function SnapshotOf(value: Option<Json>): (r: Result<JsonSnapshot, Error>)
    ensures r.Err? <==> value.None? || value == Some(JNull)
    ensures r.Ok? ==> && r.value.issued == ListOr(Get(value.value, "issued"))
                      && r.value.revoked == ListOr(Get(value.value, "revoked"))
  {
    var revoked :- Read(value, "revoked");
    var issued := Get(value.value, "issued");  // `value` was read once already, so this read cannot throw
    Ok(JsonSnapshot(ListOr(issued), ListOr(revoked)))
  }

  /** `getDelta` on the defaulted values: the lists pass through untouched without
      `from`; with `from`, both `issued` values must be arrays (otherwise `filter`
      or `includes` is not a function and the call throws) */
  function GetDeltaJson(to: JsonSnapshot, from: Option<JsonSnapshot>): (r: Result<(Json, Json), Error>)
    ensures from.None? ==> r == Ok((to.issued, to.revoked))
    ensures from.Some? ==> (r.Ok? <==> to.issued.JArr? && from.value.issued.JArr?)
    ensures r.Ok? && from.Some? ==>
              r.value.0.JArr? && r.value.1.JArr?
              && (forall x {:trigger x in r.value.0.items} ::
                    x in r.value.0.items <==> x in to.issued.items && !Includes(from.value.issued.items, x))
              && (forall x {:trigger x in r.value.1.items} ::
                    x in r.value.1.items <==> x in from.value.issued.items && !Includes(to.issued.items, x))
  {
    if from.None? then Ok((to.issued, to.revoked))
    else if !to.issued.JArr? || !from.value.issued.JArr? then Err(TypeError)
    else
      var toIssued, fromIssued := to.issued.items, from.value.issued.items;
      Ok((JArr(WithoutJson(toIssued, fromIssued)), JArr(WithoutJson(fromIssued, toIssued))))
  }

  /** For snapshots of indices the JSON-level delta is the sequence delta */
  lemma GetDeltaJsonOnIndices(to: JsonSnapshot, from: JsonSnapshot)
    requires to.issued.JArr? && from.issued.JArr?
    requires AllPrimitive(to.issued.items) && AllPrimitive(from.issued.items)
    ensures var d := GetDelta(Snapshot(to.issued.items, []), Some(Snapshot(from.issued.items, [])));
            GetDeltaJson(to, Some(from)) == Ok((JArr(d.issued), JArr(d.revoked)))
  {
    WithoutJsonOnPrimitives(to.issued.items, from.issued.items);
    WithoutJsonOnPrimitives(from.issued.items, to.issued.items);
  }

  /** A missing `issued` list at `from` counts as empty: every index issued at `to` is new */
  lemma MissingFromIssuedIsEmpty(to: JsonSnapshot, fromValue: seq<Field>)
    requires to.issued.JArr?
    requires Lookup(fromValue, "issued").None?
    ensures var from := SnapshotOf(Some(JObj(fromValue)));
            && from.Ok? && from.value.issued == JArr([])
            && GetDeltaJson(to, Some(from.value)) == Ok((to.issued, JArr([])))
  {
    WithoutJsonNothing(to.issued.items);
  }

  /** Filtering against an empty list keeps everything */
  lemma {:induction false} WithoutJsonNothing(xs: seq<Json>)
    ensures WithoutJson(xs, []) == xs
  {
    if xs != [] {
      WithoutJsonNothing(xs[1..]);
      assert [xs[0]] + xs[1..] == xs;
    }
  }
}

=== FILE: roles.dfy ===
/** The NYM role code table and `roleIdToRoleAction`, which maps a role code
    (after trimming) to the symbolic action of the transaction. */
module Roles {
  import opened Wrappers

  datatype RoleAction =
    | SetTrustee
    | SetSteward
    | SetEndorser
    | SetNetworkMonitor
    | RemoveRole
    | UnknownRoleAction
  {
    /** The label written into `roleAction` */
    function Name(): string {
      match this
      case SetTrustee => "SET_TRUSTEE"
      case SetSteward => "SET_STEWARD"
      case SetEndorser => "SET_ENDORSER"
      case SetNetworkMonitor => "SET_NETWORK_MONITOR"
      case RemoveRole => "REMOVE_ROLE"
      case UnknownRoleAction => "UNKNOWN_ROLE_ACTION"
    }
  }

  /** The ledger's role codes (the `ROLE_ACTIONS` object) */
  const RoleActions: map<string, RoleAction> :=
    map["0" := SetTrustee, "2" := SetSteward, "101" := SetEndorser, "201" := SetNetworkMonitor]

  /** The code that the table maps to a given action, if any */
  function CodeOf(a: RoleAction): Option<string> {
    match a
    case SetTrustee => Some("0")
    case SetSteward => Some("2")
    case SetEndorser => Some("101")
    case SetNetworkMonitor => Some("201")
    case _ => None
  }

  /** The table has exactly the four ledger codes, each maps to a distinct
      action that `CodeOf` takes back to it, and neither REMOVE_ROLE nor
      UNKNOWN_ROLE_ACTION is reachable through it */
  lemma RoleActionsTable()
    ensures RoleActions.Keys == {"0", "2", "101", "201"}
    ensures forall code | code in RoleActions :: CodeOf(RoleActions[code]) == Some(code)
    ensures RemoveRole !in RoleActions.Values && UnknownRoleAction !in RoleActions.Values
  {
  }

  /** The characters `String.prototype.trim` strips: ECMAScript WhiteSpace and LineTerminator */
  predicate IsWhiteSpace(c: char) {
    var n := c as int;
    || n == 0x09 || n == 0x0A || n == 0x0B || n == 0x0C || n == 0x0D || n == 0x20
    || n == 0xA0 || n == 0x1680 || (0x2000 <= n <= 0x200A) || n == 0x2028 || n == 0x2029
    || n == 0x202F || n == 0x205F || n == 0x3000 || n == 0xFEFF
  }

  predicate AllWhiteSpace(s: string) {
    forall i :: 0 <= i < |s| ==> IsWhiteSpace(s[i])
  }

  /** s with its leading white space removed */
  function TrimStart(s: string): (r: string)
    ensures |r| <= |s| && r == s[|s| - |r|..]
    ensures AllWhiteSpace(s[..|s| - |r|])
    ensures r == [] || !IsWhiteSpace(r[0])
  {
    if s != [] && IsWhiteSpace(s[0]) then TrimStart(s[1..]) else s
  }

  /** s with its trailing white space removed */
  function TrimEnd(s: string): (r: string)
    ensures |r| <= |s| && r == s[..|r|]
    ensures AllWhiteSpace(s[|r|..])
    ensures r == [] || !IsWhiteSpace(r[|r| - 1])
  {
    if s != [] && IsWhiteSpace(s[|s| - 1]) then TrimEnd(s[..|s| - 1]) else s
  }

  /** `String.prototype.trim` */
  function Trim(s: string): string {
    TrimEnd(TrimStart(s))
  }

  /** r is s with white space stripped from both ends, and nothing more */
  ghost predicate IsTrimOf(r: string, s: string) {
    && (exists i, j :: 0 <= i <= j <= |s| && r == s[i..j] && AllWhiteSpace(s[..i]) && AllWhiteSpace(s[j..]))
    && (r == [] || (!IsWhiteSpace(r[0]) && !IsWhiteSpace(r[|r| - 1])))
  }

  /** `trim` strips exactly the outer white space */
  lemma TrimSpec(s: string)
    ensures IsTrimOf(Trim(s), s)
  {
    var t := TrimStart(s);
    var r := TrimEnd(t);
    var i := |s| - |t|;
    assert r == s[i..i + |r|];
    assert s[i + |r|..] == t[|r|..];
  }

  /** A string trims to "" exactly when it is all white space */
  lemma TrimEmptyIffBlank(s: string)
    ensures Trim(s) == "" <==> AllWhiteSpace(s)
  {
    var t := TrimStart(s);
    if Trim(s) == "" {
      assert t[0..] == t;
      assert s == s[..|s| - |t|] + t;
    }
  }

  /** White space around a code does not change what it trims to */
  lemma {:induction false} TrimPadded(w1: string, s: string, w2: string)
    requires AllWhiteSpace(w1) && AllWhiteSpace(w2)
    requires s == [] || (!IsWhiteSpace(s[0]) && !IsWhiteSpace(s[|s| - 1]))
    ensures Trim(w1 + s + w2) == s
  {
    if s == [] {
      assert w1 + s + w2 == w1 + w2;
      assert AllWhiteSpace(w1 + w2);
      TrimEmptyIffBlank(w1 + w2);
    } else {
      assert w1 + s + w2 == w1 + (s + w2);
      TrimStartPadded(w1, s + w2);
      TrimEndPadded(s, w2);
    }
  }

  lemma {:induction false} TrimStartPadded(w: string, s: string)
    requires AllWhiteSpace(w)
    requires s == [] || !IsWhiteSpace(s[0])
    ensures TrimStart(w + s) == s
    decreases |w|
  {
    if w != [] {
      assert (w + s)[1..] == w[1..] + s;
      TrimStartPadded(w[1..], s);
    } else {
      assert w + s == s;
    }
  }

  lemma {:induction false} TrimEndPadded(s: string, w: string)
    requires AllWhiteSpace(w)
    requires s == [] || !IsWhiteSpace(s[|s| - 1])
    ensures TrimEnd(s + w) == s
    decreases |w|
  {
    if w != [] {
      assert (s + w)[..|s + w| - 1] == s + w[..|w| - 1];
      TrimEndPadded(s, w[..|w| - 1]);
    } else {
      assert s + w == s;
    }
  }

  /** `roleIdToRoleAction`; `None` is a null role */
  function RoleIdToRoleAction(id: Option<string>): (r: RoleAction)
    ensures r != RemoveRole ==> id.Some?
  {
    if id.None? then RemoveRole
    else
      var code := Trim(id.value);
      if code == "" then RemoveRole
      else if code in RoleActions then RoleActions[code]
      else UnknownRoleAction
  }

  /** A null or blank role removes the role; a code of the table, once trimmed,
      maps to its action; every other role is unknown. The mapping never fails. */
  lemma RoleActionSpec(id: Option<string>)
    ensures var r := RoleIdToRoleAction(id);
            && (r == RemoveRole <==> id.None? || AllWhiteSpace(id.value))
            && (r != RemoveRole && r != UnknownRoleAction ==> CodeOf(r) == Some(Trim(id.value)))
            && (r == UnknownRoleAction <==> id.Some? && !AllWhiteSpace(id.value) && Trim(id.value) !in RoleActions)
  {
    if id.Some? {
      TrimEmptyIffBlank(id.value);
    }
  }

  /** Every code of the table, with any white space around it, maps back to its action */
  lemma RoleCodeRoundTrip(a: RoleAction, w1: string, w2: string)
    requires CodeOf(a).Some?
    requires AllWhiteSpace(w1) && AllWhiteSpace(w2)
    ensures RoleIdToRoleAction(Some(w1 + CodeOf(a).value + w2)) == a
  {
    var code := CodeOf(a).value;
    TrimPadded(w1, code, w2);
    assert Trim(w1 + code + w2) == code;
    assert code in RoleActions && RoleActions[code] == a;
  }

  /** A string with no white space at either end trims to itself */
  lemma TrimUnpadded(s: string)
    requires s == [] || (!IsWhiteSpace(s[0]) && !IsWhiteSpace(s[|s| - 1]))
    ensures Trim(s) == s
  {
    assert TrimStart(s) == s;
  }

  /** "0" is the trustee code */
  lemma TrusteeExample()
    ensures RoleIdToRoleAction(Some("0")) == SetTrustee
  {
    TrimUnpadded("0");
    assert RoleActions["0"] == SetTrustee;
  }

  /** An empty role removes the role */
  lemma EmptyRoleExample()
    ensures RoleIdToRoleAction(Some("")) == RemoveRole
  {
    assert TrimStart("") == "";
  }

  /** White space around the endorser code is ignored */
  lemma PaddedEndorserExample()
    ensures RoleIdToRoleAction(Some(" 101\n")) == SetEndorser
  {
    RoleCodeRoundTrip(SetEndorser, " ", "\n");
    assert " " + "101" + "\n" == " 101\n";
  }

  /** A code outside the table is unknown, not an error */
  lemma UnknownRoleExample()
    ensures RoleIdToRoleAction(Some("999")) == UnknownRoleAction
  {
    TrimUnpadded("999");
    assert "999" !in RoleActions;
  }
}

=== FILE: routes.dfy ===
/** The read routes of the transactions API, one function per route: the
    parameter checks come first and reject the request before storage is
    consulted; otherwise the stored transactions are looked up and turned into
    ledger-shaped replies.

    Storage is a parameter: `find` answers a query with the matching stored
    transactions (in storage order), `findOne` with the single match or
    nothing. An `Err` result is the exception the handler throws, which the
    request pipeline turns into an error response. */
module Routes {
  import opened Wrappers
  import opened Js
  import opened QueryFilters
  import opened Replies

  datatype Response =
    | Rejected(rejection: Rejection)  // handed to `next` without a lookup
    | Sent(reply: Reply)              // status 200 with one reply
    | SentAll(replies: seq<Reply>)    // status 200 with a list of replies

  /** A storage query: subledger, the filter object's members in order
      (undefined ones included, as the handlers pass them), transaction type */
  datatype Query = Query(subledger: string, filter: seq<(string, Option<Json>)>, txType: string)

  function JStrOf(s: Option<string>): Option<Json> {
    if s.None? then None else Some(JStr(s.value))
  }

  /** `txs.map(build)`: the first element whose reply throws aborts the map */
  function MapReplies(txs: seq<StoredTx>, build: StoredTx -> Result<Reply, Error>): (r: Result<seq<Reply>, Error>)
    ensures r.Ok? <==> forall i :: 0 <= i < |txs| ==> build(txs[i]).Ok?
    ensures r.Ok? ==> |r.value| == |txs| && forall i :: 0 <= i < |txs| ==> r.value[i] == build(txs[i]).value
    ensures r.Err? ==> exists i :: && 0 <= i < |txs| && build(txs[i]) == Err(r.error)
                                   && forall j :: 0 <= j < i ==> build(txs[j]).Ok?
  {
    if txs == [] then Ok([])
    else
      var first :- build(txs[0]);
      var rest := MapReplies(txs[1..], build);
      assert forall i :: 1 <= i < |txs| ==> txs[i] == txs[1..][i - 1];
      if rest.Err? then
        var i :| && 0 <= i < |txs[1..]| && build(txs[1..][i]) == Err(rest.error)
                 && forall j :: 0 <= j < i ==> build(txs[1..][j]).Ok?;
        assert forall j :: 0 <= j < i + 1 ==> build(txs[j]).Ok?;
        Err(rest.error)
      else
        Ok([first] + rest.value)
  }

  // ---- GET_TXN ----

  /** GET_TXN: the transaction with the given sequence number on the ledger the
      id names; `getTx` answers with the stored text's JSON.parse outcome
      (`None` inside when it is not JSON), or nothing */
  function GetTxnRoute(ledgerId: int, seqNo: int, reqId: string, identifier: string,
                       getTx: (Option<string>, int) -> Option<Option<Json>>): (r: Result<Response, Error>)
    ensures r.Ok? ==> r.value.Sent? && r.value.reply.TxnReply?
  {
    var stored := getTx(GetSubledger(ledgerId), seqNo);
    if stored.None? then Err(TypeError)               // `tx.idata` of undefined
    else if stored.value.None? then Err(SyntaxError)  // JSON.parse threw
    else
      var original := stored.value.value;
      var txn :- Read(Some(original), "txn");
      var reply :- BuildResponse(TypeCode(GetTxn), identifier, reqId, txn, Get(original, "txnMetadata"),
                                 Get(original, "reqSignature"), Get(original, "rootHash"), Get(original, "auditPath"));
      Ok(Sent(reply))
  }

  /** GET_TXN asks storage for the ledger `getSubledger` names and nothing else;
      its reply is a REPLY of type "3" carrying the stored `txnMetadata` and
      proofs */
  lemma GetTxnSpec(ledgerId: int, seqNo: int, reqId: string, identifier: string,
                   getTx: (Option<string>, int) -> Option<Option<Json>>,
                   getTx': (Option<string>, int) -> Option<Option<Json>>)
    requires getTx(GetSubledger(ledgerId), seqNo) == getTx'(GetSubledger(ledgerId), seqNo)
    ensures GetTxnRoute(ledgerId, seqNo, reqId, identifier, getTx) == GetTxnRoute(ledgerId, seqNo, reqId, identifier, getTx')
    ensures var stored := getTx(GetSubledger(ledgerId), seqNo);
            var r := GetTxnRoute(ledgerId, seqNo, reqId, identifier, getTx);
            && (stored.None? ==> r == Err(TypeError))
            && (stored.Some? && stored.value.None? ==> r == Err(SyntaxError))
            && (r.Ok? ==>
                  var original := stored.value.value;
                  && Answers(r.value.reply, GetTxn, identifier, reqId)
                  && r.value.reply.txnMetadata == Get(original, "txnMetadata").value
                  && r.value.reply.reqSignature == Get(original, "reqSignature")
                  && r.value.reply.rootHash == Get(original, "rootHash")
                  && r.value.reply.auditPath == Get(original, "auditPath"))
  {
  }

  // ---- GET_NYM and GET_ATTRIB ----

  function NymQuery(dest: string, timestamp: Option<Json>, seqNo: Option<Json>): Query {
    Query("domain", [("nym", Some(JStr(dest))), ("seqNo", seqNo), ("timestamp", timestamp)], "NYM")
  }

  /** GET_NYM: every NYM transaction of `dest`, optionally at a `timestamp` or `seqNo` */
  function GetNymRoute(dest: string, timestamp: Option<Json>, seqNo: Option<Json>, reqId: string, identifier: string,
                       find: Query -> seq<StoredTx>): (r: Result<Response, Error>)
    ensures r.Ok? && !r.value.Rejected? ==> r.value.SentAll?
  {
    match TimestampSeqNoCheck(timestamp, seqNo)
    case Conflict(rejection) => Ok(Rejected(rejection))
    case Pass =>
      var replies :- MapReplies(find(NymQuery(dest, timestamp, seqNo)), tx => NymReplyOf(identifier, reqId, tx));
      Ok(SentAll(replies))
  }

  /** Both `timestamp` and `seqNo` set is rejected, whatever storage holds;
      otherwise there is one reply per stored NYM, in order, each with that
      transaction's `seqNo` */
  lemma GetNymSpec(dest: string, timestamp: Option<Json>, seqNo: Option<Json>, reqId: string, identifier: string,
                   find: Query -> seq<StoredTx>)
    ensures var r := GetNymRoute(dest, timestamp, seqNo, reqId, identifier, find);
            && (Truthy(timestamp) && Truthy(seqNo) <==> r == Ok(Rejected(ValidationError(TimestampSeqNoMessage))))
            && (r.Ok? && r.value.SentAll? ==>
                  var txs := find(NymQuery(dest, timestamp, seqNo));
                  && |r.value.replies| == |txs|
                  && forall i :: 0 <= i < |txs| ==>
                       && Answers(r.value.replies[i], Nym, identifier, reqId)
                       && r.value.replies[i].result.seqNo == txs[i].seqNo)
  {
    CountTruthyOfTwo(timestamp, seqNo);
    var r := GetNymRoute(dest, timestamp, seqNo, reqId, identifier, find);
    if r.Ok? && r.value.SentAll? {
      var txs := find(NymQuery(dest, timestamp, seqNo));
      forall i | 0 <= i < |txs|
        ensures r.value.replies[i].result.seqNo == txs[i].seqNo
      {
        NymReplySpec(identifier, reqId, txs[i]);
      }
    }
  }

  function AttribQuery(dest: string, timestamp: Option<Json>, seqNo: Option<Json>, raw: Option<string>): Query {
    Query("domain", [("nym", Some(JStr(dest))), ("timestamp", timestamp), ("seqNo", seqNo), ("raw", JStrOf(raw))], "ATTRIB")
  }

  /** GET_ATTRIB: the ATTRIB transactions of `dest`, optionally at a
      `timestamp` or `seqNo`, and for the base64-encoded `raw` payload */
  function GetAttribRoute(dest: string, timestamp: Option<Json>, seqNo: Option<Json>, rawBase64: Option<string>,
                          reqId: string, identifier: string, decode: string -> string, parse: Json -> Option<Json>,
                          find: Query -> seq<StoredTx>): (r: Result<Response, Error>)
    ensures r.Ok? && !r.value.Rejected? ==> r.value.SentAll?
  {
    match TimestampSeqNoCheck(timestamp, seqNo)
    case Conflict(rejection) => Ok(Rejected(rejection))
    case Pass =>
      var raw := DecodeRaw(rawBase64, decode);
      var replies :- MapReplies(find(AttribQuery(dest, timestamp, seqNo, raw)),
                                tx => AttribReplyOf(parse, identifier, reqId, tx));
      Ok(SentAll(replies))
  }

  /** Both `timestamp` and `seqNo` set is rejected before anything is decoded
      or looked up; otherwise storage is asked for the decoded payload, and
      there is one ATTRIB reply per stored transaction */
  lemma GetAttribSpec(dest: string, timestamp: Option<Json>, seqNo: Option<Json>, rawBase64: Option<string>,
                      reqId: string, identifier: string, decode: string -> string, parse: Json -> Option<Json>,
                      find: Query -> seq<StoredTx>)
    ensures var r := GetAttribRoute(dest, timestamp, seqNo, rawBase64, reqId, identifier, decode, parse, find);
            && (Truthy(timestamp) && Truthy(seqNo) <==> r == Ok(Rejected(ValidationError(TimestampSeqNoMessage))))
            && (r.Ok? && r.value.SentAll? ==>
                  var txs := find(AttribQuery(dest, timestamp, seqNo, DecodeRaw(rawBase64, decode)));
                  && |r.value.replies| == |txs|
                  && forall i :: 0 <= i < |txs| ==> Answers(r.value.replies[i], Attrib, identifier, reqId))
  {
    CountTruthyOfTwo(timestamp, seqNo);
  }

  // ---- Single-transaction lookups ----

  function SchemaQuery(from: string, name: string, version: string): Query {
    Query("domain", [("from", Some(JStr(from))),
                     ("data", Some(JObj([Field("version", JStr(version)), Field("name", JStr(name))])))], "SCHEMA")
  }

  /** GET_SCHEMA: the schema `from` published under `name` and `version` */
  function GetSchemaRoute(from: string, name: string, version: string, reqId: string, identifier: string,
                          findOne: Query -> Option<StoredTx>): (r: Result<Response, Error>)
    ensures r.Ok? ==> r.value.Sent? && Answers(r.value.reply, Schema, identifier, reqId)
    ensures findOne(SchemaQuery(from, name, version)).None? ==> r == Err(TypeError)
  {
    var reply :- SchemaReplyOf(from, identifier, reqId, findOne(SchemaQuery(from, name, version)));
    Ok(Sent(reply))
  }

  function ClaimDefQuery(from: string, ref: string, signatureType: string): Query {
    Query("domain", [("from", Some(JStr(from))), ("ref", Some(JStr(ref))),
                     ("signature_type", Some(JStr(signatureType)))], "CLAIM_DEF")
  }

  /** GET_CLAIM_DEF: the definition `from` published for schema `ref`; the
      `tag` is not part of the lookup and is checked on the stored definition */
  function GetClaimDefRoute(from: string, ref: string, signatureType: string, tag: string,
                            reqId: string, identifier: string, findOne: Query -> Option<StoredTx>)
    : (r: Result<Response, Error>)
    ensures r.Ok? ==> r.value.Sent?
    ensures r.Ok? && !r.value.reply.EmptyReply? ==> Answers(r.value.reply, ClaimDef, identifier, reqId)
  {
    var reply :- ClaimDefReplyOf(from, ref, signatureType, tag, identifier, reqId,
                                 findOne(ClaimDefQuery(from, ref, signatureType)));
    Ok(Sent(reply))
  }

  /** Two requests that differ only in `tag` find the same definition; at most
      one of two different tags gets a non-empty reply */
  lemma ClaimDefTagNotQueried(from: string, ref: string, signatureType: string, tag1: string, tag2: string,
                              reqId: string, identifier: string, findOne: Query -> Option<StoredTx>)
    requires tag1 != tag2
    requires findOne(ClaimDefQuery(from, ref, signatureType)).Some?
    requires findOne(ClaimDefQuery(from, ref, signatureType)).value.original.Some?
    requires ReadPath(findOne(ClaimDefQuery(from, ref, signatureType)).value.original, ["txn", "data", "tag"]).Ok?
    ensures var r1 := GetClaimDefRoute(from, ref, signatureType, tag1, reqId, identifier, findOne);
            var r2 := GetClaimDefRoute(from, ref, signatureType, tag2, reqId, identifier, findOne);
            r1 == Ok(Sent(EmptyReply)) || r2 == Ok(Sent(EmptyReply))
  {
    var tx := findOne(ClaimDefQuery(from, ref, signatureType)).value;
    ClaimDefGate(from, ref, signatureType, tag1, identifier, reqId, tx);
    ClaimDefGate(from, ref, signatureType, tag2, identifier, reqId, tx);
  }

  /** GET_REVOC_REG_DEF: the revocation registry definition with the given id */
  function GetRevocRegDefRoute(id: string, reqId: string, identifier: string, findOne: Query -> Option<StoredTx>)
    : (r: Result<Response, Error>)
    ensures r.Ok? ==> r.value.Sent? && Answers(r.value.reply, RevocRegDef, identifier, reqId)
    ensures findOne(Query("domain", [("id", Some(JStr(id)))], "REVOC_REG_DEF")).None? ==> r == Err(TypeError)
  {
    var reply :- RevocRegDefReplyOf(identifier, reqId, findOne(Query("domain", [("id", Some(JStr(id)))], "REVOC_REG_DEF")));
    Ok(Sent(reply))
  }

  function EntryQuery(revocRegDefId: string, timestamp: Json): Query {
    Query("domain", [("revocRegDefId", Some(JStr(revocRegDefId))), ("timestamp", Some(timestamp))], "REVOC_REG_ENTRY")
  }

  /** GET_REVOC_REG: the registry entry in force at `timestamp` */
  function GetRevocRegRoute(revocRegDefId: string, timestamp: Json, reqId: string, identifier: string,
                            findOne: Query -> Option<StoredTx>): (r: Result<Response, Error>)
    ensures r.Ok? ==> r.value.Sent? && Answers(r.value.reply, RevocRegEntry, identifier, reqId)
    ensures r.Ok? ==> r.value.reply.RevocRegEntryReply? && r.value.reply.revocRegDefId == revocRegDefId
  {
    var reply :- RevocRegEntryReplyOf(revocRegDefId, identifier, reqId, findOne(EntryQuery(revocRegDefId, timestamp)));
    Ok(Sent(reply))
  }

  /** `from && await lookup(...)`: a falsy `from` is kept as it is and no lookup is made */
  function EntryFromOf(revocRegDefId: string, from: Option<Json>, findOne: Query -> Option<StoredTx>): (e: EntryFrom)
    ensures !Truthy(from) ==> e == Absent(from)
    ensures Truthy(from) ==> (e.Present? <==> findOne(EntryQuery(revocRegDefId, from.value)).Some?)
  {
    if !Truthy(from) then Absent(from)
    else
      var found := findOne(EntryQuery(revocRegDefId, from.value));
      if found.None? then Absent(None) else Present(found.value)
  }

  /** GET_REVOC_REG_DELTA: the change of the registry between `from` (when
      given) and `to` */
  function GetRevocRegDeltaRoute(revocRegDefId: string, from: Option<Json>, to: Json, reqId: string, identifier: string,
                                 findOne: Query -> Option<StoredTx>): (r: Result<Response, Error>)
    ensures r.Ok? ==> r.value.Sent? && Answers(r.value.reply, RevocRegDelta, identifier, reqId)
    ensures findOne(EntryQuery(revocRegDefId, to)).None? ==> r == Err(TypeError)
  {
    var entryTo := findOne(EntryQuery(revocRegDefId, to));
    var entryFrom := EntryFromOf(revocRegDefId, from, findOne);
    var reply :- RevocRegDeltaReplyOf(revocRegDefId, identifier, reqId, entryTo, entryFrom);
    Ok(Sent(reply))
  }

  /** With a falsy `from` (absent, or 0) only the `to` entry is looked up: two
      stores that agree on it give the same answer, and that answer is the full
      `to` state with the falsy `from` in place of `stateProofFrom` */
  lemma DeltaFalsyFromLooksUpOnlyTo(revocRegDefId: string, from: Option<Json>, to: Json, reqId: string, identifier: string,
                                   findOne: Query -> Option<StoredTx>, findOne': Query -> Option<StoredTx>)
    requires !Truthy(from)
    requires findOne(EntryQuery(revocRegDefId, to)) == findOne'(EntryQuery(revocRegDefId, to))
    ensures GetRevocRegDeltaRoute(revocRegDefId, from, to, reqId, identifier, findOne)
         == GetRevocRegDeltaRoute(revocRegDefId, from, to, reqId, identifier, findOne')
    ensures var r := GetRevocRegDeltaRoute(revocRegDefId, from, to, reqId, identifier, findOne);
            r.Ok? ==> r.value.reply.delta.stateProofFrom == from && r.value.reply.delta.value.accumFrom == AccumFalsy(from)
  {
    var r := GetRevocRegDeltaRoute(revocRegDefId, from, to, reqId, identifier, findOne);
    if r.Ok? {
      var toTx := findOne(EntryQuery(revocRegDefId, to)).value;
      DeltaDataWithoutFrom(toTx, from);
    }
  }

  // ---- Config-ledger lookups ----

  /** GET_TRANSACTION_AUTHOR_AGREEMENT_AML: the AML in force, or the one of a
      `version` or at a `timestamp` */
  function GetTaaAmlRoute(version: Option<Json>, timestamp: Option<Json>, reqId: string, identifier: string,
                          find: Query -> seq<StoredTx>): (r: Result<Response, Error>)
    ensures r.Ok? && !r.value.Rejected? ==> r.value.Sent? && Answers(r.value.reply, TaaAml, identifier, reqId)
  {
    match TaaAmlCheck(version, timestamp)
    case Conflict(rejection) => Ok(Rejected(rejection))
    case Pass =>
      var reply :- AgreementReplyOf(true, identifier, reqId,
                                    find(Query("config", [("version", version), ("timestamp", timestamp)],
                                               "TXN_AUTHOR_AGREEMENT_AML")));
      Ok(Sent(reply))
  }

  /** `timestamp` with `version` is rejected whatever storage holds */
  lemma GetTaaAmlRejects(version: Option<Json>, timestamp: Option<Json>, reqId: string, identifier: string,
                         find: Query -> seq<StoredTx>)
    ensures Truthy(timestamp) && Truthy(version)
            <==> GetTaaAmlRoute(version, timestamp, reqId, identifier, find) == Ok(Rejected(ValidationError(TaaAmlMessage)))
  {
    CountTruthyOfTwo(timestamp, version);
  }

  /** The schema hands TAA-AML its `timestamp` as a string: "0" is truthy and
      conflicts with a `version` */
  lemma TaaAmlStringZeroRejected(reqId: string, identifier: string, find: Query -> seq<StoredTx>)
    ensures GetTaaAmlRoute(Some(JStr("v1")), Some(JStr("0")), reqId, identifier, find)
            == Ok(Rejected(ValidationError(TaaAmlMessage)))
  {
    GetTaaAmlRejects(Some(JStr("v1")), Some(JStr("0")), reqId, identifier, find);
  }

  /** GET_TRANSACTION_AUTHOR_AGREEMENT: the agreement in force, or the one of a
      `version`, a `digest` or at a `timestamp` */
  function GetTaaRoute(version: Option<Json>, timestamp: Option<Json>, digest: Option<Json>,
                       reqId: string, identifier: string, find: Query -> seq<StoredTx>): (r: Result<Response, Error>)
    ensures r.Ok? && !r.value.Rejected? ==> r.value.Sent? && Answers(r.value.reply, Taa, identifier, reqId)
  {
    match TaaCheck(version, timestamp, digest)
    case Conflict(rejection) => Ok(Rejected(rejection))
    case Pass =>
      var reply :- AgreementReplyOf(false, identifier, reqId,
                                    find(Query("config", [("version", version), ("digest", digest), ("timestamp", timestamp)],
                                               "TXN_AUTHOR_AGREEMENT")));
      Ok(Sent(reply))
  }

  /** Any two of `version`, `timestamp` and `digest` are rejected whatever
      storage holds; one or none goes to storage */
  lemma GetTaaRejects(version: Option<Json>, timestamp: Option<Json>, digest: Option<Json>,
                      reqId: string, identifier: string, find: Query -> seq<StoredTx>)
    ensures (|| (Truthy(version) && Truthy(timestamp))
             || (Truthy(version) && Truthy(digest))
             || (Truthy(timestamp) && Truthy(digest)))
            <==> GetTaaRoute(version, timestamp, digest, reqId, identifier, find) == Ok(Rejected(ValidationError(TaaMessage)))
  {
    CountTruthyOfThree(version, timestamp, digest);
  }

  function AuthRuleLookup(q: AuthRuleQuery, reqId: string, identifier: string): Query {
    Query("config", [("auth_action", q.authAction), ("auth_type", q.authType), ("field", q.field),
                     ("old_value", q.oldValue), ("new_value", q.newValue),
                     ("reqId", Some(JStr(reqId))), ("identifier", Some(JStr(identifier)))], "AUTH_RULE")
  }

  /** GET_AUTH_RULE: every rule, or the one rule the four parameters name */
  function GetAuthRuleRoute(q: AuthRuleQuery, reqId: string, identifier: string, find: Query -> seq<StoredTx>)
    : (r: Result<Response, Error>)
    ensures r.Ok? && !r.value.Rejected? ==> r.value.Sent? && Answers(r.value.reply, AuthRule, identifier, reqId)
  {
    match AuthRuleCheck(q)
    case Conflict(rejection) => Ok(Rejected(rejection))
    case Pass =>
      var reply :- AuthRuleReplyOf(q, identifier, reqId, find(AuthRuleLookup(q, reqId, identifier)));
      Ok(Sent(reply))
  }

  /** Some but not all of `auth_action`, `auth_type`, `field` and `new_value`
      is rejected whatever storage holds; otherwise the reply lists one rule per
      stored transaction */
  lemma GetAuthRuleSpec(q: AuthRuleQuery, reqId: string, identifier: string, find: Query -> seq<StoredTx>)
    ensures var some := q.authAction.Some? || q.authType.Some? || q.field.Some? || q.newValue.Some?;
            var all := q.authAction.Some? && q.authType.Some? && q.field.Some? && q.newValue.Some?;
            (some && !all) <==> GetAuthRuleRoute(q, reqId, identifier, find) == Ok(Rejected(PlainError(AuthRuleMessage)))
    ensures var r := GetAuthRuleRoute(q, reqId, identifier, find);
            r.Ok? && r.value.Sent? ==> |r.value.reply.rules| == |find(AuthRuleLookup(q, reqId, identifier))|
  {
  }
}

=== FILE: wrappers.dfy ===
/** Failure-compatible wrappers shared by every module of the model.
- Option<T> stands for a JavaScript value that may be `undefined`.
- Result<T, E> stands for a computation that returns normally or throws.
Both can be used with `:-`.
 */
module Wrappers {

  /** `None` is JavaScript's `undefined`: a missing key, an absent argument. */
  datatype Option<+T> = None | Some(value: T) {

    predicate IsFailure() {
      None?
    }

    function PropagateFailure<U>(): Option<U>
      requires None?
    {
      None
    }

    function Extract(): T
      requires Some?
    {
      value
    }

    /** The value, or `default` when absent (JavaScript's `x || default` on a truthy-or-undefined x) */
    function GetOr(default: T): T {
      match this
      case Some(v) => v
      case None => default
    }
  }

  /** `Err` is an exception that escapes the modelled function. */
  datatype Result<+T, +E> = Ok(value: T) | Err(error: E) {

    predicate IsFailure() {
      Err?
    }

    function PropagateFailure<U>(): Result<U, E>
      requires Err?
    {
      Err(error)
    }

    function Extract(): T
      requires Ok?
    {
      value
    }
  }
}
